=== FILE: README.md ===
# Kahramana Baghdad ordering core, modelled in Dafny

This project models the ordering logic of the Kahramana Baghdad restaurant site.
It covers four pieces:

- **Menu data.** The menu-data validator and the menu card, which displays a dish's price and decides how a click on "add" becomes a cart line.
- **Main cart store.** The React cart store of the main site: it prices each line, merges lines by id and size, handles notes, quantities and totals, and persists the cart.
- **WhatsApp order message.** A header, one line per item, the priced total, the branch, the customer's location and an order number. The message is joined with line breaks and percent-encoded.
- **Two other carts and the translations.** The legacy cart of the redesign, the cart of the installable (PWA) menu page, and the redesign's bilingual translation lookup.

Modelling choices:

- Prices are integer thousandths of a dinar (fils). `Number.prototype.toFixed` is modelled as decimal half-up rounding of that exact value (`NumberText`). The ties and long expansions where JavaScript's binary doubles give other digits are listed under "Left out".
- `encodeURIComponent` is the UTF-8 percent-encoding of section 2.1 of RFC 3986. It leaves exactly the unreserved set of section 2.3 plus `!'()*` unescaped (`PercentEncoding`).
- `String.prototype.trim` removes the ECMAScript white-space and line-terminator characters. A string's `length` counts UTF-16 code units.
- Inputs from the browser and the clock become parameters: the random fallback id, `Date.now()`, `Math.random()`, the prompt answer and its `parseInt` value, the stored cart, and the branch's WhatsApp number.
- `window.open` is recorded as a list of opened URLs.

One module per source file: `CartStore`, `OrderMessage`, `LegacyCart`, `PwaCart`, `MenuItemCard`, `MenuData` and `Translations`. Shared value types live in `Common` (options, the two languages, decimal text, trimming) and `Catalog` (the shapes a menu entry's `name`, `price`, `sizes` and `priceLabel` can take).

Where the code and the site's design description differ, the model follows the code:

- **No quantity cap in the main cart.** The main cart store merges a repeated add into one line and has no quantity limit. Only the PWA cart clamps quantities to 1..99.
- **Sized dish with no size chosen.** It is still added to the main cart, unpriced, under the catalog id (`context/CartContext.tsx:134-139`). The card prevents this only when it prompts.
- **Hydration.** It accepts any stored array as it is (`context/CartContext.tsx:83-85`).
- **Stored name.** The name stored on a new main-cart line is the English name, falling back to Arabic. It does not depend on the active language (`context/CartContext.tsx:163`).
- **Card versus message name.** The order message is built from the cart's lines, so it prints that stored name (`utils/order.ts:44-45`). An Arabic-language customer sees the Arabic name on the card (`components/MenuItemCard.tsx:42`) but the English name in the WhatsApp message whenever the dish has one. `MenuItemCard.MessageNameOfAddedDish` states this.
- **Misspelled label.** A price of unexpected shape gets the label "السعار عند الطلب", spelled differently from the usual "السعر عند الطلب" (`context/CartContext.tsx:146`). `CartStore.ResolvePricing` states exactly when each spelling appears.
- **Card versus cart on a missing price.** The card prompts for a size only when the dish has an explicit `price: null` (`components/MenuItemCard.tsx:66-67`). The cart store treats a missing `price` property as `null` (`context/CartContext.tsx:104`).
- **Duplicate ids in the PWA cart.** `loadCart` in the PWA page does not merge entries with the same id. `PwaCart.NormalizeAppend` and `PwaCart.LoadAfterSave` describe what it does keep.

## Model

| member | source | states |
|---|---|---|
| Common.DecimalString | context/CartContext.tsx:150 | the decimal text of a size index is all digits, has no leading zero, is one character exactly for numbers below ten, and reads back as the number |
| Common.DecimalStringInjective | context/CartContext.tsx:150 | different size indexes never print the same text |
| Common.Trim | assets/menu/script.js:989-990 | the trimmed text is a contiguous piece of the input, everything dropped before and after it is white space, it begins and ends with a non-space, and it is empty exactly when the input is all white space |
| NumberText.ScaledArithmetic | utils/order.ts:15-17 | with d ≥ 3 decimals the amount is the exact value times 10^(d−3); with fewer it is the value rounded half up to d decimals |
| NumberText.ToFixed | utils/order.ts:15-17 | `toFixed(d)` text has a minus sign exactly for negative amounts, for d > 0 a point d+1 places from the end, and exactly d digits after it |
| NumberText.ToFixedReadsBack | utils/order.ts:15-17 | for every number of decimals d, the digits after the sign are a whole part, a point and d fraction digits. They denote the amount in units of 10^-d: exactly when d ≥ 3, rounded half up when d < 3 |
| NumberText.ToFixed3RoundTrip | components/MenuItemCard.tsx:50 | a non-negative price printed with three decimals is digits, a point and three digits, and reads back as the same price |
| PercentEncoding.Utf8 | utils/order.ts:89 | each character encodes to one to four bytes, and to a single byte exactly when it is ASCII |
| PercentEncoding.EncodeURIComponent | utils/order.ts:89 | the encoded message holds only `%` and unreserved characters; text made of unreserved characters is left unchanged; encoding never shortens |
| PercentEncoding.NewlineEscape | utils/order.ts:88-89 | the line separator of the message travels as `%0A` |
| CartStore.SizeLabel | context/CartContext.tsx:127-132 | the stored size label is never empty and is the size's own label whenever it has one |
| CartStore.ResolvePricing | context/CartContext.tsx:103-148 | a line counts toward the total exactly when it has no price label, and an excluded line is priced 0; a size is recorded exactly when the price reads as null and the selection names an existing size; the misspelled label appears exactly for an unexpected price or sizes shape |
| CartStore.LineId | context/CartContext.tsx:150 | without a size the line id is the dish id; with a size it is the dish id followed by `-size-` and the index |
| CartStore.LineIdSeparatesSizes | context/CartContext.tsx:150 | two different size choices of one dish never share a line id, so they never merge |
| CartStore.NewLine | context/CartContext.tsx:99-172 | a new line has quantity 1 and an empty note, plus per case: a numeric price is kept and counted; no price and no sizes, or sizes with no valid choice, give an uncounted line priced on request; a valid size choice gives the `-size-` id, the size's price or price on request, and the caller's label before the size's own |
| CartStore.UpdateById | context/CartContext.tsx:193 | every line with the id is changed, every other line is untouched, and order and ids stay the same |
| CartStore.RemoveById | context/CartContext.tsx:182 | the result keeps exactly the lines with other ids; the id is gone; nothing changes when the id was absent; unique ids stay unique |
| CartStore.AddLine | context/CartContext.tsx:152-175 | afterwards the id is present; an existing line with the id gains one unit in place, otherwise the new line is appended; unique ids stay unique |
| CartStore.SetQuantityById | context/CartContext.tsx:196-201 | a quantity ≤ 0 removes the line (and only that line); a positive one sets that line's quantity and keeps every other line and the order |
| CartStore.UpdateAt | context/CartContext.tsx:158 | with unique ids, updating by id changes exactly the one position that holds the id |
| CartStore.RemoveAt | context/CartContext.tsx:182 | with unique ids, removing by id cuts out exactly the one position that holds the id |
| CartStore.TotalsBounds | context/CartContext.tsx:203-208 | an empty cart totals 0; with quantities ≥ 1 the item count is at least the number of lines; with no counted line the price total is 0; with non-negative counted prices and quantities it is non-negative |
| CartStore.TotalsOfAppend | context/CartContext.tsx:203-208 | both totals add up over a concatenation of carts |
| CartStore.AddLineTotals | context/CartContext.tsx:152-175 | adding a dish raises the item count by one; a new line adds its own contribution to the price total |
| CartStore.MergeTotals | context/CartContext.tsx:155-158 | merging into an existing line adds one unit and, if that line counts, its unit price |
| CartStore.RemoveTotals | context/CartContext.tsx:181-183 | removing a line lowers the totals by exactly that line's quantity and contribution |
| CartStore.UpdateQuantityTotals | context/CartContext.tsx:196-201 | setting a positive quantity changes the totals by the difference that line makes |
| CartStore.NoteKeepsTotals | context/CartContext.tsx:192-194 | editing a note never changes either total, and has no effect on an absent id |
| CartStore.Cart.constructor | context/CartContext.tsx:56 | the cart starts empty and saved |
| CartStore.Cart.Hydrate | context/CartContext.tsx:80-91 | a stored array replaces the cart, anything else leaves it as it is; storage then matches the cart |
| CartStore.Cart.AddToCart | context/CartContext.tsx:95-179 | the cart becomes the old cart with the priced line added or merged; it stays saved; unique ids stay unique and the item count rises by one |
| CartStore.Cart.RemoveItem | context/CartContext.tsx:181-183 | the id is gone and the rest is kept; unique ids stay unique; storage follows |
| CartStore.Cart.Clear | context/CartContext.tsx:185 | the cart is empty with both totals 0, and storage follows |
| CartStore.Cart.UpdateItemNote | context/CartContext.tsx:192-194 | only the notes of lines with the id change; both totals are unchanged; an absent id changes nothing |
| CartStore.Cart.UpdateQuantity | context/CartContext.tsx:196-201 | the cart is updated as by `SetQuantityById`, keeps unique ids, and storage follows |
| OrderMessage.Defaults | utils/order.ts:27-29 | with no options the message is in Arabic, in BHD, with three decimals |
| OrderMessage.ItemName | utils/order.ts:45 | a string name is used as is; a language map gives the active language's name when present and is empty only when both names are empty |
| OrderMessage.ItemLinesAt | utils/order.ts:42-62 | the k-th item line describes exactly the k-th item |
| OrderMessage.PricedTotal | utils/order.ts:49-56 | a message whose items are all on request has total 0 |
| OrderMessage.PricedTotalAppend | utils/order.ts:41-62 | the priced total adds up over consecutive runs of items |
| OrderMessage.PushItems | utils/order.ts:41-62 | the item loop produces exactly one line per item and the total of the priced items |
| OrderMessage.PushTrailer | utils/order.ts:64-86 | the closing lines pushed are exactly the message trailer |
| OrderMessage.GenerateWhatsAppMessage | utils/order.ts:26-90 | the result is the percent-encoding of the message lines joined by line breaks |
| OrderMessage.MessageStructure | utils/order.ts:31-62 | the message is the header, a blank line, one line per item in order, then the trailer |
| OrderMessage.TrailerStructure | utils/order.ts:64-86 | the trailer has a blank line and the total only when the total is positive, then a blank line, the branch and location lines only when given, and ends with the order number |
| OrderMessage.SplitJoin | utils/order.ts:88 | joining lines that contain no line break and splitting at line breaks gives the same lines back |
| OrderMessage.TotalMatchesCart | utils/order.ts:49-56 | for a cart's lines, the total in the message equals the cart's own price total |
| OrderMessage.TimestampTail | utils/order.ts:21 | the timestamp part has at most six digits, exactly six once the clock passes 100000, and denotes the time modulo 10^6 |
| OrderMessage.RandomSuffix | utils/order.ts:22 | the random part is a number from 1000 to 9999 |
| OrderMessage.OrderNumber | utils/order.ts:20-24 | the order number is `ORD-`, the last six digits of the time, a dash and four digits holding the random part |
| LegacyCart.FirstWith | NEW_PROJECT_REVIEW/website/context/CartContext.tsx:74 | the line `find` returns has the id and no earlier line has it |
| LegacyCart.StepsAt | NEW_PROJECT_REVIEW/website/context/CartContext.tsx:66 | increment and decrement change by one exactly the lines with the id and nothing else |
| LegacyCart.Without | NEW_PROJECT_REVIEW/website/context/CartContext.tsx:79 | after filtering the id is absent, and filtering an absent id changes nothing |
| LegacyCart.WithoutMembers | NEW_PROJECT_REVIEW/website/context/CartContext.tsx:79 | filtering keeps exactly the lines with other ids |
| LegacyCart.AddOne | NEW_PROJECT_REVIEW/website/context/CartContext.tsx:62-70 | after adding, the id is present; an existing line gains a unit, otherwise a one-unit line is appended |
| LegacyCart.TakeOne | NEW_PROJECT_REVIEW/website/context/CartContext.tsx:72-81 | an absent id changes nothing; a first line with more than one unit loses one; otherwise the id is removed entirely |
| LegacyCart.TotalQuantity | NEW_PROJECT_REVIEW/website/context/CartContext.tsx:85 | with every quantity at least one, the item count is at least the number of lines |
| LegacyCart.AddOneKeepsValid | NEW_PROJECT_REVIEW/website/context/CartContext.tsx:62-70 | adding keeps ids unique and every quantity at least one |
| LegacyCart.TakeOneKeepsValid | NEW_PROJECT_REVIEW/website/context/CartContext.tsx:72-81 | removing one unit keeps ids unique and every quantity at least one |
| LegacyCart.WithoutKeepsValid | NEW_PROJECT_REVIEW/website/context/CartContext.tsx:79 | filtering keeps ids unique and every quantity at least one |
| LegacyCart.DecrementIncrement | NEW_PROJECT_REVIEW/website/context/CartContext.tsx:62-81 | one unit down after one unit up restores the cart |
| LegacyCart.IncrementDecrement | NEW_PROJECT_REVIEW/website/context/CartContext.tsx:62-81 | one unit up after one unit down restores the cart |
| LegacyCart.FirstAfterIncrement | NEW_PROJECT_REVIEW/website/context/CartContext.tsx:64-66 | after an increment the first line with the id holds one more unit |
| LegacyCart.TakeOneUndoesAddOne | NEW_PROJECT_REVIEW/website/context/CartContext.tsx:62-81 | on a valid cart, removing one unit of a dish just added restores the cart |
| LegacyCart.AddOneUndoesTakeOne | NEW_PROJECT_REVIEW/website/context/CartContext.tsx:62-81 | adding back a unit just removed from a line of several restores the cart |
| LegacyCart.AddOneTotals | NEW_PROJECT_REVIEW/website/context/CartContext.tsx:85-86 | adding raises the item count by one and the price total by the unit price of the line that grew |
| LegacyCart.IncrementTotals | NEW_PROJECT_REVIEW/website/context/CartContext.tsx:85-86 | with unique ids, an increment adds one unit and one unit price to the totals |
| LegacyCart.AppendTotals | NEW_PROJECT_REVIEW/website/context/CartContext.tsx:85-86 | appending a line adds its quantity and its line total |
| LegacyCart.Cart.constructor | NEW_PROJECT_REVIEW/website/context/CartContext.tsx:38 | the cart starts empty and saved |
| LegacyCart.Cart.Hydrate | NEW_PROJECT_REVIEW/website/context/CartContext.tsx:40-60 | parsed contents replace the cart; a missing or unparsable value leaves it; storage matches the cart |
| LegacyCart.Cart.AddItem | NEW_PROJECT_REVIEW/website/context/CartContext.tsx:62-70 | the cart becomes the old one with the product added; validity is kept and the count rises by one |
| LegacyCart.Cart.RemoveItem | NEW_PROJECT_REVIEW/website/context/CartContext.tsx:72-81 | the cart loses one unit of the dish, or the whole line at one unit, and validity is kept |
| LegacyCart.Cart.Clear | NEW_PROJECT_REVIEW/website/context/CartContext.tsx:83 | the cart is empty and storage follows |
| PwaCart.Clamp | assets/menu/script.js:39 | the result lies within the bounds, equals the input when it already does, and is the nearer bound otherwise |
| PwaCart.IndexOf | assets/menu/script.js:396-402 | every key of the dish index is a non-empty id mapped to the dish with that id |
| PwaCart.IndexOfKeys | assets/menu/script.js:396-402 | an id is in the index exactly when some present dish with a non-empty id carries it |
| PwaCart.IndexOfLastWins | assets/menu/script.js:396-402 | when several dishes share an id, the index keeps the last one |
| PwaCart.Normalize | assets/menu/script.js:699-709 | loading keeps at most the stored entries, every kept quantity lies in 1..99, and nothing is dropped when every entry is well formed |
| PwaCart.NormalizeOne | assets/menu/script.js:699-709 | one stored entry is kept exactly when it has an id and a positive numeric quantity (a `qty` that is not a finite number falls back to `quantity`). It is then kept under that id with the quantity clamped to 1..99; otherwise it is dropped |
| PwaCart.NormalizeMembers | assets/menu/script.js:699-709 | the loaded cart holds exactly the clamped forms of the stored entries that have an id and a positive quantity |
| PwaCart.LoadAfterSave | assets/menu/script.js:699-709 | a cart with quantities in range that was saved loads back unchanged |
| PwaCart.NormalizeAppend | assets/menu/script.js:699-709 | loading handles each stored entry on its own, in order, without merging duplicate ids |
| PwaCart.NormalizeIdempotent | assets/menu/script.js:699-711 | loading what a load just saved gives the same cart |
| PwaCart.FirstIndex | assets/menu/script.js:746 | `find` returns the first position with the id, or none exactly when the id is absent |
| PwaCart.AddEntry | assets/menu/script.js:746-748 | afterwards the dish is in the cart; an existing entry keeps the cart's length, a new dish is appended with quantity one |
| PwaCart.AddEntryQuantities | assets/menu/script.js:746-747 | adding a dish already in the cart changes only its first entry, which gains one unit, or stays at 99 when it is full |
| PwaCart.ShiftEntryQuantities | assets/menu/script.js:759-762 | a quantity change touches only the first entry with the id, keeps it in 1..99, and moves it by exactly the step whenever that stays in range |
| PwaCart.ShiftEntry | assets/menu/script.js:758-765 | changing a quantity keeps the length and every id; an absent id changes nothing |
| PwaCart.DropEntriesMembers | assets/menu/script.js:768 | removal keeps exactly the entries with other ids |
| PwaCart.DropEntriesAppend | assets/menu/script.js:768 | removal works entry by entry across a concatenation |
| PwaCart.DropAbsent | assets/menu/script.js:768 | removing an absent id changes nothing |
| PwaCart.AddEntryKeepsInvariant | assets/menu/script.js:746-748 | adding keeps ids unique and every quantity in 1..99 |
| PwaCart.ShiftEntryKeepsInvariant | assets/menu/script.js:762 | a quantity change keeps ids unique and every quantity in 1..99 |
| PwaCart.DropEntriesKeepsInvariant | assets/menu/script.js:768 | removal keeps ids unique and every quantity in 1..99 |
| PwaCart.Count | assets/menu/script.js:725 | with quantities in 1..99 the count lies between the number of entries and 99 times it |
| PwaCart.Total | assets/menu/script.js:727-735 | entries whose dish is unknown contribute nothing; a cart of only such entries totals 0 |
| PwaCart.SumsOfUpdate | assets/menu/script.js:725-735 | replacing one entry changes the count and the total by exactly that entry's difference |
| PwaCart.AddEntrySums | assets/menu/script.js:737-756 | adding an orderable dish raises the count by one and the total by its price, unless its entry is already at 99, which leaves the cart unchanged |
| PwaCart.Utf16Length | assets/menu/script.js:992 | the UTF-16 length lies between the number of characters and twice that |
| PwaCart.WhatsAppUrlParses | assets/menu/script.js:667-675 | the link parses back: everything after the last `?` is `text=` and the encoded message, and everything before it is `https://wa.me/` followed by the number. When the number holds no `?`, that `?` is the only one in the link |
| PwaCart.MessageStaysInParameter | assets/menu/script.js:670 | the encoded message contains no `&`, `#`, `=`, `?` or space, so it cannot leave the `text` parameter |
| PwaCart.CheckoutOutcome | assets/menu/script.js:982-1005 | WhatsApp opens exactly when the cart is non-empty, the trimmed name has at least 2 UTF-16 units and the trimmed address at least 10; an empty cart is reported before anything else |
| PwaCart.BlankInputRefused | assets/menu/script.js:989-996 | a name of only white space is refused as missing, whatever the address |
| PwaCart.CartPage.constructor | assets/menu/script.js:64-69 | the page starts with an empty cart, an empty dish index, nothing saved and nothing opened |
| PwaCart.CartPage.BuildDishIndex | assets/menu/script.js:396-402 | the dish index becomes the index of the given dishes and nothing else changes |
| PwaCart.CartPage.SaveCart | assets/menu/script.js:717-723 | storage becomes the cart and nothing else changes |
| PwaCart.CartPage.LoadCart | assets/menu/script.js:691-715 | the primary key is read, falling back to the legacy key; stored entries replace the cart normalised and are saved again; anything else leaves cart and storage as they were |
| PwaCart.CartPage.CartTotal | assets/menu/script.js:727-735 | the loop computes the cart total as specified by `Total` |
| PwaCart.CartPage.Find | assets/menu/script.js:746 | the search loop returns the first position of the id, or none |
| PwaCart.CartPage.AddToCart | assets/menu/script.js:737-756 | an unknown dish is ignored; a dish without a positive price opens a price inquiry and leaves the cart alone; an orderable dish is added or merged and the cart saved |
| PwaCart.CartPage.UpdateCartQty | assets/menu/script.js:758-765 | the entry's quantity moves by the step and is clamped to 1..99; storage follows only when the dish was in the cart |
| PwaCart.CartPage.RemoveFromCart | assets/menu/script.js:767-771 | every entry of the dish is removed and the cart saved |
| PwaCart.CartPage.ClearCart | assets/menu/script.js:773-778 | the cart and storage become empty |
| PwaCart.CartPage.MinusClick | assets/menu/script.js:835-838 | "−" on an entry with one unit removes the dish; on a larger entry it takes one unit off; either way storage then holds the new cart |
| PwaCart.CartPage.HandleCartCheckout | assets/menu/script.js:982-1005 | the outcome is the one `CheckoutOutcome` prescribes, exactly one link is opened when it says so and none otherwise, and the cart is untouched |
| MenuItemCard.CardNameAgainstCartAndMessage | components/MenuItemCard.tsx:42 | the card's name agrees with the name the cart stores for a plain string name, and in English for a language map. It differs in Arabic when the two texts differ. The message composer's name rule, applied to the catalog name itself, gives whatever non-empty name the card shows |
| MenuItemCard.MessageNameOfAddedDish | components/MenuItemCard.tsx:42 | the order message for a dish added from the card prints the cart's stored name (`context/CartContext.tsx:163`, read by `utils/order.ts:45`), English first: in English it matches the card, in Arabic it differs from the card whenever the English and Arabic names differ |
| MenuItemCard.PriceDisplay | components/MenuItemCard.tsx:48-60 | a numeric price shows with three decimals and the currency; otherwise a non-blank text label, the active language's entry of a label map, or the default price-on-request text, which is also what a label of only white space gives; never empty |
| MenuItemCard.PriceTextReadsBack | components/MenuItemCard.tsx:49-50 | the displayed amount of a non-negative price reads back as that price |
| MenuItemCard.ChosenSizeLabel | components/MenuItemCard.tsx:88 | the chosen size's label is never empty: its label, else its name, else its position counted from one |
| MenuItemCard.Decide | components/MenuItemCard.tsx:62-107 | a numeric price, or a dish that does not ask for a size, is added plainly; a dish that asks adds a sized line exactly when the answer is non-empty and names a size from 1 to the number of sizes, and nothing otherwise |
| MenuItemCard.SizedDispatchMakesSizedLine | components/MenuItemCard.tsx:86-90 | a chosen size reaches the cart as a line with the `-size-` id, that index and the chosen label |
| MenuItemCard.FixedPriceDispatch | components/MenuItemCard.tsx:70-76 | a fixed-price dish reaches the cart under its own id, at its price, counted in the total |
| MenuItemCard.Card.constructor | components/MenuItemCard.tsx:38-39 | the card is bound to the cart and shows nothing added |
| MenuItemCard.Card.HandleAdd | components/MenuItemCard.tsx:62-107 | the click does what `Decide` prescribes: no add leaves the cart, its storage and the flag alone; otherwise the cart gains the line, storage holds the new items and the card shows it was added |
| MenuItemCard.Card.ResetAdded | components/MenuItemCard.tsx:75 | the added flag is cleared |
| MenuData.ArrayFieldsOfToJson | utils/menu.ts:12-13 | reading the list fields back from a normalized menu's JSON gives its categories and dishes unchanged; a bare array has neither field and reads as empty lists |
| MenuData.ValidateMenuData | utils/menu.ts:9-19 | the result is null exactly for a falsy or non-object value; otherwise categories and dishes are the arrays found or empty, and the currency is a non-empty string found or "BHD" |
| MenuData.ValidateIdempotent | utils/menu.ts:9-19 | validating a validated menu again gives the same menu |
| MenuData.EmptyObjectDefaults | utils/menu.ts:11-15 | an empty object validates to no categories, no dishes and "BHD" |
| Translations.Child | NEW_PROJECT_REVIEW/website/utils/translations.ts:177 | a found child is the value of a field with that key; a missing child means no field has the key |
| Translations.GetTranslation | NEW_PROJECT_REVIEW/website/utils/translations.ts:171-184 | the lookup loop returns the text the key path leads to in the active language's table, and "" when the path is missing or ends on a section |
| Translations.MissingPrefix | NEW_PROJECT_REVIEW/website/utils/translations.ts:177-181 | once a prefix of the path is missing, the whole lookup gives "" |
| Translations.PastLeaf | NEW_PROJECT_REVIEW/website/utils/translations.ts:176-183 | a path that goes on past a text gives "" |
| Translations.WalkAppend | NEW_PROJECT_REVIEW/website/utils/translations.ts:176-182 | following one more segment is one step from where the shorter path ends |
| Translations.EmptyPath | NEW_PROJECT_REVIEW/website/utils/translations.ts:183 | the empty path reaches a section, not a text, so it gives "" |
| Translations.NavMenuExample | NEW_PROJECT_REVIEW/website/utils/translations.ts:166-170 | `['nav','menu']` gives "Menu" in English and "القائمة" in Arabic |
| Translations.ChildSameKeys | NEW_PROJECT_REVIEW/website/utils/translations.ts:177 | sections with the same keys in the same order find a child for the same keys, and the children again have the same keys |
| Translations.SameKeysWalk | NEW_PROJECT_REVIEW/website/utils/translations.ts:176-182 | two tables with the same key structure resolve the same paths, and reach places with the same key structure |
| Translations.TablesSameKeys | NEW_PROJECT_REVIEW/website/utils/translations.ts:17-163 | the English and Arabic tables define the same keys, in the same order, at every level |
| Translations.KeyParity | NEW_PROJECT_REVIEW/website/utils/translations.ts:17-18 | every key path exists in English exactly when it exists in Arabic, and ends on a text in one exactly when it does in the other |

## Left out

- Images are left out: the `image` field of main-cart lines and the image of legacy-cart products are not modelled, because nothing in the ordering logic reads them.
- The random fallback id of a catalog entry without an id is a parameter. So is the `Math.random` value behind the order number. The clock is a parameter too (`Date.now`).
- Only string dish ids are modelled. A numeric id converted with `String(...)` is the same as a string id.
- Entries of `sizes` are objects. A `null` or primitive entry in a sizes array is not modelled.
- LegacyCart.Cart.Hydrate: stored text that parses as JSON but is not an array (`null`, `0`, `{}`) is not modelled. The legacy cart has no `Array.isArray` check and takes whatever `JSON.parse` returns as its items (`NEW_PROJECT_REVIEW/website/context/CartContext.tsx:44-47`). Its totals' `items.reduce` then throws during render (`NEW_PROJECT_REVIEW/website/context/CartContext.tsx:85`). The main cart checks `Array.isArray` first (`context/CartContext.tsx:83`), so this is a real difference between the two carts; the model's `Stored` holds either unparsable text or a list of items.
- Hydrated main-cart lines are assumed to be well-formed `CartItem` values. Storage can hold arbitrary JSON, and the model does not capture lines with a non-numeric price or quantity.
- Amounts are integer thousandths. Binary floating point, `NaN`, infinities and fractional quantities are not modelled. Neither are `Number.isFinite` on non-integers, `Number(...)` on non-numeric text, or the exponent notation `toFixed` uses from 10^21 on.
- NumberText.ToFixed: rounds the exact decimal amount half up. JavaScript rounds the binary double nearest to it, so at a tie the digits can differ: `(2.55).toFixed(1)` is "2.5" and `(1.005).toFixed(2)` is "1.00". From about 18 decimals on, JavaScript prints digits of the binary expansion (`(0.1).toFixed(20)` is "0.10000000000000000555"), while the model prints zeros.
- Size labels are strings (`Catalog`). A size whose `label` is an object is not modelled. For a priced size the cart would fall back to the size number (`context/CartContext.tsx:127`); for an unpriced size it would store `String(s.label)`, that is "[object Object]" (`context/CartContext.tsx:132`). The card would pass the object itself (`components/MenuItemCard.tsx:88`).
- A dish whose `name` is `null` is not modelled as an error. `typeof null` is "object", so the card reads a property of `null` and throws (`components/MenuItemCard.tsx:42`). MenuItemCard.DisplayName gives "" for every name shape it does not recognise.
- Lone UTF-16 surrogates are not representable, because a Dafny `char` is a Unicode scalar value. `encodeURIComponent` throws a `URIError` on them, outside any `catch` (`utils/order.ts:89`).
- OrderMessage.GenerateWhatsAppMessage: requires at most 100 decimals. With more, `toFixed` throws a `RangeError`. For a priced item this happens inside the per-item `try` (`utils/order.ts:43-61`): the item's line is skipped, but its amount has already been added to the total (`utils/order.ts:56`). Only the total line (`utils/order.ts:67`, `:69`) throws out of the function, and only when the total is positive. So with more than 100 decimals and no positive total (every item on request, say) the source still returns a message, which the model does not cover. A negative `decimalPlaces`, which also throws, and a fractional one, which `toFixed` truncates, cannot be expressed by the model's optional natural number.
- The `try`/`catch` blocks that swallow errors are not modelled, because no modelled path throws. The per-item `catch` in the order message is one of them.
- `localStorage` reads and writes become a stored value passed in or a `persisted`/`stored` field. JSON text is not modelled.
- React state, effect ordering and re-rendering are not modelled. Each state update is applied directly to the cart field. The main cart's `addItem` alias just calls `addToCart` and has no member of its own.
- In the card, the prompt text and the timer that clears the "added" flag are left out. The user's answer and its `parseInt` value are inputs.
- In the PWA page, the DOM rendering, toasts, the pulse animation and focus handling are left out.
- The PWA page's `buildOrderMessage` and `buildInquiryMessage` texts are not modelled. They are passed in as the message to send.
- `getDishName`, `getDishPriceText`, `formatBD`, the branch index and the language/theme/branch preferences of the PWA page are not modelled, because they only serve display.
- Translations.GetTranslation: a text leaf is treated as having no children. JavaScript would index into a string (`"Menu"["0"]`, `"Menu"["length"]`) and reach inherited object properties. The model instead gives "" for any path that continues past a text.
- Console logging is left out.

=== FILE: cart_store.dfy ===
/** The cart store of the main site (context/CartContext.tsx): the ordered
    list of cart lines, how a menu entry is priced and merged into it, and the
    derived totals. Prices are integers in thousandths of the currency unit. */
module CartStore {
  import opened Common
  import opened Catalog

  /** The canonical "price on request" label. */
  const PriceOnRequest: string := "السعر عند الطلب"
  /** The label written by the last branch of the pricing chain (an
      unexpected entry shape); it is spelled differently from PriceOnRequest. */
  const PriceOnRequestOther: string := "السعار عند الطلب"

  /** One line of the cart. `includedInTotal` is optional because a cart read
      back from storage is taken as it is and may lack the field. */
  datatype CartItem = CartItem(
    id: string,
    name: string,
    price: int,
    priceLabel: Option<string>,
    includedInTotal: Option<bool>,
    quantity: int,
    sizeIndex: Option<int>,
    sizeLabel: Option<string>,
    note: string)

  /** The options the menu card passes along with an entry. An empty
      `sizeLabel` stands for a missing one. */
  datatype AddOptions = AddOptions(selectedSizeIndex: Option<int>, sizeLabel: string)

  const NoOptions: AddOptions := AddOptions(None, "")

  /** What the pricing chain decides for a new line. */
  datatype Pricing = Pricing(
    price: int,
    priceLabel: Option<string>,
    includedInTotal: bool,
    sizeIndex: Option<nat>,
    sizeLabel: Option<string>)

  /** A `price` that is absent reads as `null`. */
  predicate ReadsAsNull(p: PriceField) {
    p.Missing? || p.Null?
  }

  /** The selected index names an existing entry of a `sizes` array. */
  predicate ValidSelection(sizes: SizesField, selected: Option<int>) {
    sizes.SizeList? && selected.Some? && 0 <= selected.value < |sizes.options|
  }

  /** The label of a chosen size: its own label, else its 1-based position. */
  function SizeLabel(s: SizeOption, idx: nat): (r: string)
    ensures r != ""
    ensures s.labelText != "" ==> r == s.labelText
  {
    if s.labelText != "" then s.labelText else DecimalString(idx + 1)
  }

  /** The pricing chain of `addToCart`. */
  function ResolvePricing(price: PriceField, sizes: SizesField, selected: Option<int>): (r: Pricing)
    ensures r.includedInTotal <==> r.priceLabel.None?
    ensures !r.includedInTotal ==> r.price == 0
    ensures r.sizeIndex.Some? <==> ReadsAsNull(price) && ValidSelection(sizes, selected)
    ensures r.sizeIndex.Some? <==> r.sizeLabel.Some?
    ensures r.sizeIndex.Some? ==> r.sizeIndex.value == selected.value
    ensures r.priceLabel == Some(PriceOnRequestOther) <==>
              price.Other? || (ReadsAsNull(price) && sizes.OtherSizes?)
  {
    if ReadsAsNull(price) && sizes.NoSizes? then
      Pricing(0, Some(PriceOnRequest), false, None, None)
    else if ReadsAsNull(price) && sizes.SizeList? then
      if ValidSelection(sizes, selected) then
        var idx: nat := selected.value;
        var s := sizes.options[idx];
        if s.price.Some? then Pricing(s.price.value, None, true, Some(idx), Some(SizeLabel(s, idx)))
        else Pricing(0, Some(PriceOnRequest), false, Some(idx), Some(SizeLabel(s, idx)))
      else
        Pricing(0, Some(PriceOnRequest), false, None, None)
    else if price.Number? then
      Pricing(price.fils, None, true, None, None)
    else
      Pricing(0, Some(PriceOnRequestOther), false, None, None)
  }

  /** The id a line is merged under: the catalog id, suffixed by the size index
      when a size was chosen. */
  function LineId(baseId: string, sizeIndex: Option<nat>): (r: string)
    ensures sizeIndex.None? ==> r == baseId
    ensures sizeIndex.Some? ==> |r| > |baseId| + 6 && r[..|baseId| + 6] == baseId + "-size-"
  {
    if sizeIndex.Some? then baseId + "-size-" + DecimalString(sizeIndex.value) else baseId
  }

  /** Two sizes of the same entry never share a line, and a sized line never
      merges with the unsized line of its entry. */
  lemma {:induction false} LineIdSeparatesSizes(baseId: string, i: Option<nat>, j: Option<nat>)
    requires LineId(baseId, i) == LineId(baseId, j)
    ensures i == j
  {
    var prefix := baseId + "-size-";
    if i.Some? && j.Some? {
      var a, b := LineId(baseId, i), LineId(baseId, j);
      assert a == prefix + DecimalString(i.value);
      assert b == prefix + DecimalString(j.value);
      assert a[|prefix|..] == DecimalString(i.value);
      assert b[|prefix|..] == DecimalString(j.value);
      DecimalStringInjective(i.value, j.value);
    }
  }

  /** The catalog id, or the random fallback id when the entry has none. */
  function BaseId(entry: CatalogEntry, randomId: string): string {
    if entry.id != "" then entry.id else randomId
  }

  /** The stored name: a plain string as it is, a language map by its English
      text, then its Arabic text. The active language plays no part. */
  function StoredName(n: Name): string {
    match n
    case NoName => ""
    case Text(t) => t
    case Localized(en, ar) => if en != "" then en else ar
  }

  /** The line `addToCart` creates for an entry that is not in the cart yet. */
  function NewLine(entry: CatalogEntry, opts: AddOptions, randomId: string): (r: CartItem)
    ensures r.quantity == 1 && r.note == "" && r.includedInTotal.Some?
    ensures r.name == StoredName(entry.name)
    // a fixed price
    ensures entry.price.Number? ==>
              r.id == BaseId(entry, randomId) && r.price == entry.price.fils &&
              r.includedInTotal == Some(true) && r.priceLabel == None && r.sizeIndex == None
    // no price and no sizes: price on request
    ensures ReadsAsNull(entry.price) && entry.sizes.NoSizes? ==>
              r.id == BaseId(entry, randomId) && r.price == 0 &&
              r.includedInTotal == Some(false) && r.priceLabel == Some(PriceOnRequest)
    // no price, sizes, and a valid selection: a sized line
    ensures ReadsAsNull(entry.price) && ValidSelection(entry.sizes, opts.selectedSizeIndex) ==>
              var idx: nat := opts.selectedSizeIndex.value;
              var size := entry.sizes.options[idx];
              && r.id == BaseId(entry, randomId) + "-size-" + DecimalString(idx)
              && r.sizeIndex == Some(idx)
              && r.sizeLabel == Some(if opts.sizeLabel != "" then opts.sizeLabel else SizeLabel(size, idx))
              && (size.price.Some? ==> r.price == size.price.value && r.includedInTotal == Some(true))
              && (size.price.None? ==> r.price == 0 && r.includedInTotal == Some(false) &&
                                       r.priceLabel == Some(PriceOnRequest))
    // no price, sizes, but no valid selection: still added, unpriced, under the catalog id
    ensures ReadsAsNull(entry.price) && entry.sizes.SizeList? &&
            !ValidSelection(entry.sizes, opts.selectedSizeIndex) ==>
              r.id == BaseId(entry, randomId) && r.price == 0 && r.sizeIndex == None &&
              r.includedInTotal == Some(false) && r.priceLabel == Some(PriceOnRequest)
    // any other shape: price on request under the differently spelled label
    ensures entry.price.Other? || (ReadsAsNull(entry.price) && entry.sizes.OtherSizes?) ==>
              r.id == BaseId(entry, randomId) && r.price == 0 &&
              r.includedInTotal == Some(false) && r.priceLabel == Some(PriceOnRequestOther)
  {
    var p := ResolvePricing(entry.price, entry.sizes, opts.selectedSizeIndex);
    var sizeIndex: Option<int> := if p.sizeIndex.Some? then Some(p.sizeIndex.value) else None;
    CartItem(
      LineId(BaseId(entry, randomId), p.sizeIndex),
      StoredName(entry.name),
      p.price,
      p.priceLabel,
      Some(p.includedInTotal),
      1,
      sizeIndex,
      if opts.sizeLabel != "" then Some(opts.sizeLabel) else p.sizeLabel,
      "")
  }

  // ---------------------------------------------------------------------
  // The list transforms behind setItems

  predicate HasId(s: seq<CartItem>, id: string) {
    exists i :: 0 <= i < |s| && s[i].id == id
  }

  /** No two lines share an id. */
  predicate UniqueIds(s: seq<CartItem>) {
    forall i, j :: 0 <= i < j < |s| ==> s[i].id != s[j].id
  }

  /** The per-line changes the store applies with `map`. */
  datatype Change = Increment | SetQuantity(n: int) | SetNote(text: string)

  function Apply(x: CartItem, c: Change): CartItem {
    match c
    case Increment => x.(quantity := x.quantity + 1)
    case SetQuantity(n) => x.(quantity := n)
    case SetNote(t) => x.(note := t)
  }

  /** `prev.map(i => i.id === id ? change(i) : i)`. */
  function UpdateById(s: seq<CartItem>, id: string, c: Change): (r: seq<CartItem>)
    ensures |r| == |s|
    ensures forall i :: 0 <= i < |s| ==> r[i] == if s[i].id == id then Apply(s[i], c) else s[i]
    ensures forall i :: 0 <= i < |s| ==> r[i].id == s[i].id
  {
    if s == [] then [] else [if s[0].id == id then Apply(s[0], c) else s[0]] + UpdateById(s[1..], id, c)
  }

  /** `prev.filter(i => i.id !== id)`. */
  function RemoveById(s: seq<CartItem>, id: string): (r: seq<CartItem>)
    ensures forall x :: x in r <==> x in s && x.id != id
    ensures !HasId(r, id)
    ensures !HasId(s, id) ==> r == s
    ensures UniqueIds(s) ==> UniqueIds(r)
  {
    if s == [] then []
    else if s[0].id == id then RemoveById(s[1..], id)
    else [s[0]] + RemoveById(s[1..], id)
  }

  /** The merge step of `addToCart`: bump the line with the same id, or append. */
  function AddLine(s: seq<CartItem>, line: CartItem): (r: seq<CartItem>)
    ensures HasId(r, line.id)
    ensures HasId(s, line.id) ==> r == UpdateById(s, line.id, Increment)
    ensures !HasId(s, line.id) ==> r == s + [line]
    ensures UniqueIds(s) ==> UniqueIds(r)
  {
    if HasId(s, line.id) then UpdateById(s, line.id, Increment)
    else
      var r := s + [line];
      assert r[|s|] == line;
      r
  }

  /** The transform of `updateQuantity`. */
  function SetQuantityById(s: seq<CartItem>, id: string, n: int): (r: seq<CartItem>)
    ensures n <= 0 ==> !HasId(r, id) && (forall x :: x in r <==> x in s && x.id != id)
    ensures n > 0 ==> |r| == |s|
    ensures n > 0 ==> forall i :: 0 <= i < |s| ==> r[i] == if s[i].id == id then s[i].(quantity := n) else s[i]
    ensures UniqueIds(s) ==> UniqueIds(r)
  {
    if n <= 0 then RemoveById(s, id) else UpdateById(s, id, SetQuantity(n))
  }

  /** Under unique ids the line with a given id sits at exactly one index. */
  lemma {:induction false} UpdateAt(s: seq<CartItem>, k: nat, c: Change)
    requires UniqueIds(s) && k < |s|
    ensures UpdateById(s, s[k].id, c) == s[k := Apply(s[k], c)]
  {
    var r := UpdateById(s, s[k].id, c);
    assert |r| == |s[k := Apply(s[k], c)]|;
    forall i | 0 <= i < |s|
      ensures r[i] == s[k := Apply(s[k], c)][i]
    {
      if i != k {
        assert s[i].id != s[k].id;
      }
    }
  }

  /** `removeItem` under unique ids deletes exactly the one matching line and
      keeps the others in order. */
  lemma {:induction false} RemoveAt(s: seq<CartItem>, k: nat)
    requires UniqueIds(s) && k < |s|
    ensures RemoveById(s, s[k].id) == s[..k] + s[k + 1..]
  {
    var id, tail := s[k].id, s[1..];
    UniqueRest(s);
    if k == 0 {
      assert RemoveById(s, id) == RemoveById(tail, id);
      assert RemoveById(tail, id) == tail;
      assert s[..0] + s[1..] == tail;
    } else {
      assert tail[k - 1] == s[k];
      assert s[0].id != id;
      RemoveAt(tail, k - 1);
      var front, back := tail[..k - 1], tail[k..];
      assert RemoveById(s, id) == [s[0]] + (front + back);
      assert front == s[1..k] && back == s[k + 1..];
      assert [s[0]] + (front + back) == ([s[0]] + front) + back;
      assert [s[0]] + front == s[..k];
    }
  }

  /** Dropping the first line keeps ids unique, and no later line repeats
      the first line's id. */
  lemma UniqueRest(s: seq<CartItem>)
    requires UniqueIds(s) && s != []
    ensures UniqueIds(s[1..]) && !HasId(s[1..], s[0].id)
  {
    var tail := s[1..];
    assert forall i :: 0 <= i < |tail| ==> tail[i] == s[i + 1];
  }

  // ---------------------------------------------------------------------
  // Totals

  /** Whether a line counts toward the total price: a missing flag counts. */
  predicate Counts(x: CartItem) {
    x.includedInTotal != Some(false)
  }

  /** What one line adds to the total price. */
  function Contribution(x: CartItem): int {
    if Counts(x) then x.price * x.quantity else 0
  }

  /** `totalQuantity`: the sum of all quantities, unpriced lines included. */
  function TotalQuantity(s: seq<CartItem>): int {
    if s == [] then 0 else s[0].quantity + TotalQuantity(s[1..])
  }

  /** `totalPrice`: price times quantity summed over the lines that count. */
  function TotalPrice(s: seq<CartItem>): int {
    if s == [] then 0 else Contribution(s[0]) + TotalPrice(s[1..])
  }

  /** The empty cart has zero totals; with quantities of at least one the item
      count is at least the number of lines; a cart of unpriced lines totals
      zero; non-negative prices and quantities give a non-negative total. */
  lemma {:induction false} TotalsBounds(s: seq<CartItem>)
    ensures s == [] ==> TotalQuantity(s) == 0 && TotalPrice(s) == 0
    ensures (forall i :: 0 <= i < |s| ==> s[i].quantity >= 1) ==> TotalQuantity(s) >= |s|
    ensures (forall i :: 0 <= i < |s| ==> !Counts(s[i])) ==> TotalPrice(s) == 0
    ensures (forall i :: 0 <= i < |s| && Counts(s[i]) ==> s[i].price >= 0 && s[i].quantity >= 0) ==>
              TotalPrice(s) >= 0
  {
    if s != [] {
      var tail := s[1..];
      assert forall i :: 0 <= i < |tail| ==> tail[i] == s[i + 1];
      TotalsBounds(tail);
      if Counts(s[0]) && s[0].price >= 0 && s[0].quantity >= 0 {
        MulNonNegative(s[0].price, s[0].quantity);
      }
    }
  }

  lemma MulNonNegative(a: int, b: int)
    requires a >= 0 && b >= 0
    ensures a * b >= 0
  {
  }

  lemma {:induction false} TotalsOfAppend(s: seq<CartItem>, t: seq<CartItem>)
    ensures TotalQuantity(s + t) == TotalQuantity(s) + TotalQuantity(t)
    ensures TotalPrice(s + t) == TotalPrice(s) + TotalPrice(t)
  {
    if s != [] {
      assert (s + t)[1..] == s[1..] + t;
      TotalsOfAppend(s[1..], t);
    } else {
      assert s + t == t;
    }
  }

  lemma {:induction false} TotalsOfReplace(s: seq<CartItem>, k: nat, x: CartItem)
    requires k < |s|
    ensures TotalQuantity(s[k := x]) == TotalQuantity(s) - s[k].quantity + x.quantity
    ensures TotalPrice(s[k := x]) == TotalPrice(s) - Contribution(s[k]) + Contribution(x)
  {
    if k > 0 {
      assert s[k := x][1..] == s[1..][k - 1 := x];
      TotalsOfReplace(s[1..], k - 1, x);
    } else {
      assert s[k := x][1..] == s[1..];
    }
  }

  /** Adding one unit of an entry raises the item count by exactly one; a new
      line adds its own contribution to the total price. */
  lemma AddLineTotals(s: seq<CartItem>, line: CartItem)
    requires UniqueIds(s) && line.quantity == 1
    ensures TotalQuantity(AddLine(s, line)) == TotalQuantity(s) + 1
    ensures !HasId(s, line.id) ==> TotalPrice(AddLine(s, line)) == TotalPrice(s) + Contribution(line)
  {
    if HasId(s, line.id) {
      var k :| 0 <= k < |s| && s[k].id == line.id;
      MergeTotals(s, k, line);
    } else {
      TotalsOfAppend(s, [line]);
    }
  }

  /** Adding an entry already in the cart raises the total price by the unit
      price of the line it merges into, if that line counts. */
  lemma MergeTotals(s: seq<CartItem>, k: nat, line: CartItem)
    requires UniqueIds(s) && k < |s| && s[k].id == line.id
    ensures TotalQuantity(AddLine(s, line)) == TotalQuantity(s) + 1
    ensures TotalPrice(AddLine(s, line)) == TotalPrice(s) + (if Counts(s[k]) then s[k].price else 0)
  {
    var x := s[k];
    UpdateAt(s, k, Increment);
    TotalsOfReplace(s, k, Apply(x, Increment));
    IncrementContribution(x);
  }

  lemma IncrementContribution(x: CartItem)
    ensures Contribution(Apply(x, Increment)) == Contribution(x) + (if Counts(x) then x.price else 0)
  {
    var y := Apply(x, Increment);
    assert y.price == x.price && y.quantity == x.quantity + 1 && Counts(y) == Counts(x);
    assert x.price * (x.quantity + 1) == x.price * x.quantity + x.price;
  }

  /** Removing a line takes its quantity and its contribution off the totals. */
  lemma RemoveTotals(s: seq<CartItem>, k: nat)
    requires UniqueIds(s) && k < |s|
    ensures TotalQuantity(RemoveById(s, s[k].id)) == TotalQuantity(s) - s[k].quantity
    ensures TotalPrice(RemoveById(s, s[k].id)) == TotalPrice(s) - Contribution(s[k])
  {
    RemoveAt(s, k);
    TotalsOfAppend(s[..k], s[k + 1..]);
    TotalsOfSplit(s, k);
  }

  /** The totals of a list split around one of its lines. */
  lemma TotalsOfSplit(s: seq<CartItem>, k: nat)
    requires k < |s|
    ensures TotalQuantity(s) == TotalQuantity(s[..k]) + s[k].quantity + TotalQuantity(s[k + 1..])
    ensures TotalPrice(s) == TotalPrice(s[..k]) + Contribution(s[k]) + TotalPrice(s[k + 1..])
  {
    var front, back := s[..k], s[k + 1..];
    var rest := [s[k]] + back;
    assert s == front + rest;
    TotalsOfAppend(front, rest);
    TotalsOfAppend([s[k]], back);
    TotalsOfSingleton(s[k]);
  }

  lemma TotalsOfSingleton(x: CartItem)
    ensures TotalQuantity([x]) == x.quantity && TotalPrice([x]) == Contribution(x)
  {
    assert [x][1..] == [];
  }

  /** Setting a positive quantity replaces that line's quantity in the totals. */
  lemma UpdateQuantityTotals(s: seq<CartItem>, k: nat, n: int)
    requires UniqueIds(s) && k < |s| && n > 0
    ensures TotalQuantity(SetQuantityById(s, s[k].id, n)) == TotalQuantity(s) - s[k].quantity + n
    ensures TotalPrice(SetQuantityById(s, s[k].id, n)) ==
              TotalPrice(s) - Contribution(s[k]) + Contribution(s[k].(quantity := n))
  {
    UpdateAt(s, k, SetQuantity(n));
    TotalsOfReplace(s, k, s[k].(quantity := n));
  }

  /** What a read of the storage slot yields once parsed. */
  datatype StoredCart = NotAnArray | ArrayOf(entries: seq<CartItem>)

  /** The cart provider's state: the line list, and the snapshot that the
      persistence effect last wrote. */
  class Cart {
    var items: seq<CartItem>
    var persisted: seq<CartItem>

    /** The persistence effect has run since the last change. */
    predicate Saved()
      reads this
    {
      persisted == items
    }

    constructor ()
      ensures items == [] && Saved()
    {
      items := [];
      persisted := [];
    }

    /** Hydration: any parsed array is taken as the cart, unchecked; anything
        else leaves the cart as it is. */
    method Hydrate(stored: StoredCart)
      modifies this
      ensures items == (if stored.ArrayOf? then stored.entries else old(items))
      ensures Saved()
    {
      if stored.ArrayOf? {
        items := stored.entries;
      }
      persisted := items;
    }

    method AddToCart(entry: CatalogEntry, opts: AddOptions, randomId: string)
      modifies this
      ensures items == AddLine(old(items), NewLine(entry, opts, randomId))
      ensures Saved()
      ensures UniqueIds(old(items)) ==> UniqueIds(items)
      ensures UniqueIds(old(items)) ==> TotalQuantity(items) == TotalQuantity(old(items)) + 1
    {
      var line := NewLine(entry, opts, randomId);
      if UniqueIds(items) {
        AddLineTotals(items, line);
      }
      items := AddLine(items, line);
      persisted := items;
    }

    method RemoveItem(id: string)
      modifies this
      ensures items == RemoveById(old(items), id)
      ensures !HasId(items, id)
      ensures Saved()
      ensures UniqueIds(old(items)) ==> UniqueIds(items)
    {
      items := RemoveById(items, id);
      persisted := items;
    }

    method Clear()
      modifies this
      ensures items == [] && Saved()
      ensures TotalQuantity(items) == 0 && TotalPrice(items) == 0
    {
      items := [];
      persisted := items;
    }

    /** A note edit touches only the note of the matching line. */
    method UpdateItemNote(id: string, note: string)
      modifies this
      ensures items == UpdateById(old(items), id, SetNote(note))
      ensures !HasId(old(items), id) ==> items == old(items)
      ensures TotalQuantity(items) == TotalQuantity(old(items))
      ensures TotalPrice(items) == TotalPrice(old(items))
      ensures UniqueIds(old(items)) ==> UniqueIds(items)
      ensures Saved()
    {
      NoteKeepsTotals(items, id, note);
      items := UpdateById(items, id, SetNote(note));
      persisted := items;
    }

    method UpdateQuantity(id: string, newQuantity: int)
      modifies this
      ensures items == SetQuantityById(old(items), id, newQuantity)
      ensures UniqueIds(old(items)) ==> UniqueIds(items)
      ensures Saved()
    {
      items := SetQuantityById(items, id, newQuantity);
      persisted := items;
    }
  }

  /** An edited note never moves either total. */
  lemma {:induction false} NoteKeepsTotals(s: seq<CartItem>, id: string, note: string)
    ensures UpdateById(s, id, SetNote(note)) == s <== !HasId(s, id)
    ensures TotalQuantity(UpdateById(s, id, SetNote(note))) == TotalQuantity(s)
    ensures TotalPrice(UpdateById(s, id, SetNote(note))) == TotalPrice(s)
  {
    if s != [] {
      NoteKeepsTotals(s[1..], id, note);
      assert UpdateById(s, id, SetNote(note))[1..] == UpdateById(s[1..], id, SetNote(note));
    }
  }
}

=== FILE: catalog.dfy ===
/** The shapes a menu entry can take once the catalog document is parsed.
    The catalog is loosely typed JSON, so every field that the cart and the
    menu card inspect is a small variant type here: the code branches on
    "is it a number", "is it null", "is it an array" and so on, and each
    variant is one of those answers. Missing text fields and falsy text
    (`""`) are both written as the empty string. */
module Catalog {
  import opened Common

  /** `name`: absent, a plain string, or a map from language code to text. */
  datatype Name = NoName | Text(text: string) | Localized(en: string, ar: string)

  /** One entry of `sizes`: its `label` (as `labelText`), its `name`, and its `price` when that is a number. */
  datatype SizeOption = SizeOption(labelText: string, name: string, price: Option<int>)

  /** `price`: no such property, `null`, a number (in thousandths of the currency
      unit), or any other value (a string, `undefined` stored explicitly, ...). */
  datatype PriceField = Missing | Null | Number(fils: int) | Other

  /** `sizes`: `undefined`/`null`, an array, or any other non-null value. */
  datatype SizesField = NoSizes | SizeList(options: seq<SizeOption>) | OtherSizes

  /** `priceLabel`: absent (or neither string nor object), a plain string, or a
      per-language map. */
  datatype PriceLabelField = NoLabel | LabelText(text: string) | LabelMap(en: string, ar: string)

  /** A menu entry as the cart and the menu card receive it. An empty `id`
      stands for a missing or falsy one. */
  datatype CatalogEntry = CatalogEntry(
    id: string,
    name: Name,
    price: PriceField,
    sizes: SizesField,
    priceLabel: PriceLabelField)
}

=== FILE: common.dfy ===
/** Small value types shared by every part of the model: an optional value,
    the two interface languages and JavaScript's rendering of integers as
    decimal text (`String(n)` and template literals). */
module Common {

  datatype Option<T> = None | Some(value: T)

  /** The two interface languages of the site. */
  datatype Lang = En | Ar

  predicate IsDigit(c: char) {
    '0' <= c <= '9'
  }

  function DigitValue(c: char): (d: nat)
    requires IsDigit(c)
    ensures d < 10
  {
    c as int - '0' as int
  }

  function DigitChar(d: nat): (c: char)
    requires d < 10
    ensures IsDigit(c) && DigitValue(c) == d
  {
    ['0', '1', '2', '3', '4', '5', '6', '7', '8', '9'][d]
  }

  /** The numeric value of a string of decimal digits (leading zeros allowed). */
  function DigitsValue(s: string): nat
    requires forall i :: 0 <= i < |s| ==> IsDigit(s[i])
  {
    if s == [] then 0 else 10 * DigitsValue(s[..|s| - 1]) + DigitValue(s[|s| - 1])
  }

  /** The shortest decimal text of a natural number, as `String(n)` prints it. */
  function DecimalString(n: nat): (r: string)
    ensures 1 <= |r|
    ensures forall i :: 0 <= i < |r| ==> IsDigit(r[i])
    ensures |r| == 1 <==> n < 10
    ensures r[0] != '0' || n == 0
    ensures DigitsValue(r) == n
  {
    if n < 10 then [DigitChar(n)] else DecimalString(n / 10) + [DigitChar(n % 10)]
  }

  /** `String(n)` for an integer, with a leading minus sign for negatives. */
  function IntString(n: int): (r: string)
    ensures n >= 0 ==> r == DecimalString(n)
    ensures n < 0 ==> r == "-" + DecimalString(-n)
  {
    if n >= 0 then DecimalString(n) else "-" + DecimalString(-n)
  }

  /** Distinct numbers print differently: the decimal text identifies the number. */
  lemma {:induction false} DecimalStringInjective(m: nat, n: nat)
    requires DecimalString(m) == DecimalString(n)
    ensures m == n
  {
    var s := DecimalString(m);
    assert DigitsValue(s) == m && DigitsValue(DecimalString(n)) == n;
  }

  /** The characters `String.prototype.trim` removes: white space and line
      terminators. */
  predicate IsJsSpace(c: char) {
    c == ' ' || c == '\t' || c == '\n' || c == '\U{B}' || c == '\U{C}' || c == '\r' ||
    c == '\U{A0}' || c == '\U{1680}' || ('\U{2000}' <= c <= '\U{200A}') ||
    c == '\U{2028}' || c == '\U{2029}' || c == '\U{202F}' || c == '\U{205F}' ||
    c == '\U{3000}' || c == '\U{FEFF}'
  }

  function TrimStart(s: string): (r: string)
    ensures |r| <= |s| && r == s[|s| - |r|..]
    ensures r != [] ==> !IsJsSpace(r[0])
    ensures forall i :: 0 <= i < |s| - |r| ==> IsJsSpace(s[i])
  {
    if s != [] && IsJsSpace(s[0]) then
      var r := TrimStart(s[1..]);
      assert s[1..][|s| - 1 - |r|..] == s[|s| - |r|..];
      r
    else s
  }

  function TrimEnd(s: string): (r: string)
    ensures |r| <= |s| && r == s[..|r|]
    ensures r != [] ==> !IsJsSpace(r[|r| - 1])
    ensures forall i :: |r| <= i < |s| ==> IsJsSpace(s[i])
  {
    if s != [] && IsJsSpace(s[|s| - 1]) then
      var r := TrimEnd(s[..|s| - 1]);
      assert s[..|s| - 1][..|r|] == s[..|r|];
      r
    else s
  }

  /** Every character of `s` is one that `trim` removes. */
  predicate AllSpace(s: string) {
    forall i :: 0 <= i < |s| ==> IsJsSpace(s[i])
  }

  /** `r` is `s[a..b]`, and everything of `s` before `a` and from `b` on is
      white space. */
  predicate TrimmedAt(s: string, r: string, a: int, b: int) {
    0 <= a <= b <= |s| && r == s[a..b] && AllSpace(s[..a]) && AllSpace(s[b..])
  }

  /** `s.trim()`: the slice left after dropping white space at both ends. */
  function Trim(s: string): (r: string)
    ensures r != [] ==> !IsJsSpace(r[0]) && !IsJsSpace(r[|r| - 1])
    ensures exists a, b :: TrimmedAt(s, r, a, b)
    ensures AllSpace(s) <==> r == []
  {
    var t := TrimStart(s);
    var r := TrimEnd(t);
    TrimSlice(s, t, r);
    TrimEmpty(s, t, r);
    r
  }

  lemma TrimSlice(s: string, t: string, r: string)
    requires t == TrimStart(s) && r == TrimEnd(t)
    ensures exists a, b :: TrimmedAt(s, r, a, b)
  {
    var a := |s| - |t|;
    StartRemovesSpace(s);
    EndRemovesSpace(t);
    TrimmedFrom(s, t, r, a);
  }

  /** Space before `a`, then a suffix `t` that is `r` followed by space. */
  lemma TrimmedFrom(s: string, t: string, r: string, a: nat)
    requires a <= |s| && t == s[a..] && |r| <= |t| && r == t[..|r|]
    requires AllSpace(s[..a]) && AllSpace(t[|r|..])
    ensures TrimmedAt(s, r, a, a + |r|)
  {
    SlicesOfSuffix(s, a, |r|);
  }

  lemma TrimEmpty(s: string, t: string, r: string)
    requires t == TrimStart(s) && r == TrimEnd(t)
    ensures AllSpace(s) <==> r == []
  {
    var a := |s| - |t|;
    assert t == s[a..] && r == t[..|r|];
    if r == [] {
      assert t == [];
    } else {
      assert s[a] == t[0] && (t == [] || !IsJsSpace(t[0]));
    }
  }

  lemma StartRemovesSpace(s: string)
    ensures AllSpace(s[..|s| - |TrimStart(s)|])
  {
  }

  lemma EndRemovesSpace(t: string)
    ensures AllSpace(t[|TrimEnd(t)|..])
  {
  }

  lemma SlicesOfSuffix(s: string, a: nat, n: nat)
    requires a + n <= |s|
    ensures s[a..][..n] == s[a..a + n] && s[a..][n..] == s[a + n..]
  {
  }
}

=== FILE: legacy_cart.dfy ===
/** The cart of the earlier site version (NEW_PROJECT_REVIEW/website/context/
    CartContext.tsx): lines keyed by product id, one unit added or taken per
    call, stored under a single storage key. */
module LegacyCart {

  datatype Item = Item(id: string, name: string, price: int, quantity: int, image: string)

  /** What `addItem` receives: an item without its quantity. */
  datatype Product = Product(id: string, name: string, price: int, image: string)

  predicate HasId(s: seq<Item>, id: string) {
    exists i :: 0 <= i < |s| && s[i].id == id
  }

  /** `prev.find(i => i.id === id)`: the first line with that id. */
  function FirstWith(s: seq<Item>, id: string): (r: Item)
    requires HasId(s, id)
    ensures r.id == id
    ensures exists i :: 0 <= i < |s| && s[i] == r && forall j :: 0 <= j < i ==> s[j].id != id
  {
    if s[0].id == id then s[0]
    else
      assert HasId(s[1..], id) by {
        var i :| 0 <= i < |s| && s[i].id == id;
        assert s[1..][i - 1].id == id;
      }
      var r := FirstWith(s[1..], id);
      var i :| 0 <= i < |s[1..]| && s[1..][i] == r && forall j :: 0 <= j < i ==> s[1..][j].id != id;
      assert s[i + 1] == r;
      r
  }

  /** Every line with the id gets one more unit; the others are untouched. */
  function Increment(s: seq<Item>, id: string): (r: seq<Item>)
    ensures |r| == |s|
  {
    if s == [] then []
    else
      var x := s[0];
      [if x.id == id then x.(quantity := x.quantity + 1) else x] + Increment(s[1..], id)
  }

  /** Every line with the id loses one unit; the others are untouched. */
  function Decrement(s: seq<Item>, id: string): (r: seq<Item>)
    ensures |r| == |s|
  {
    if s == [] then []
    else
      var x := s[0];
      [if x.id == id then x.(quantity := x.quantity - 1) else x] + Decrement(s[1..], id)
  }

  /** Line k after Increment and after Decrement. */
  lemma {:induction false} StepAt(s: seq<Item>, id: string, k: nat)
    requires k < |s|
    ensures Increment(s, id)[k] == if s[k].id == id then s[k].(quantity := s[k].quantity + 1) else s[k]
    ensures Decrement(s, id)[k] == if s[k].id == id then s[k].(quantity := s[k].quantity - 1) else s[k]
  {
    if k > 0 {
      StepAt(s[1..], id, k - 1);
    }
  }

  lemma StepsAt(s: seq<Item>, id: string)
    ensures forall k :: 0 <= k < |s| ==>
      Increment(s, id)[k] == if s[k].id == id then s[k].(quantity := s[k].quantity + 1) else s[k]
    ensures forall k :: 0 <= k < |s| ==>
      Decrement(s, id)[k] == if s[k].id == id then s[k].(quantity := s[k].quantity - 1) else s[k]
  {
    forall k | 0 <= k < |s|
      ensures Increment(s, id)[k] == if s[k].id == id then s[k].(quantity := s[k].quantity + 1) else s[k]
      ensures Decrement(s, id)[k] == if s[k].id == id then s[k].(quantity := s[k].quantity - 1) else s[k]
    {
      StepAt(s, id, k);
    }
  }

  lemma IncrementAbsent(s: seq<Item>, id: string)
    requires !HasId(s, id)
    ensures Increment(s, id) == s
  {
    StepsAt(s, id);
  }

  /** `prev.filter(i => i.id !== id)`. */
  function Without(s: seq<Item>, id: string): (r: seq<Item>)
    ensures !HasId(r, id)
    ensures !HasId(s, id) ==> r == s
  {
    if s == [] then []
    else if s[0].id == id then Without(s[1..], id)
    else
      var rest := Without(s[1..], id);
      assert !HasId(s[1..], id) ==> rest == s[1..] by {
        if !HasId(s[1..], id) && !HasId(s, id) {
          assert s == [s[0]] + s[1..];
        }
      }
      [s[0]] + rest
  }

  /** `addItem`: one more unit of an existing line, or a new line of one. */
  function AddOne(s: seq<Item>, p: Product): (r: seq<Item>)
    ensures HasId(r, p.id)
    ensures HasId(s, p.id) ==> r == Increment(s, p.id)
    ensures !HasId(s, p.id) ==> r == s + [Item(p.id, p.name, p.price, 1, p.image)]
  {
    if HasId(s, p.id) then
      var i :| 0 <= i < |s| && s[i].id == p.id;
      StepAt(s, p.id, i);
      Increment(s, p.id)
    else
      var r := s + [Item(p.id, p.name, p.price, 1, p.image)];
      assert r[|s|].id == p.id;
      r
  }

  /** `removeItem`: nothing when the id is absent; one unit less when the
      first line with the id holds more than one; otherwise the id is gone. */
  function TakeOne(s: seq<Item>, id: string): (r: seq<Item>)
    ensures !HasId(s, id) ==> r == s
    ensures HasId(s, id) && FirstWith(s, id).quantity > 1 ==> r == Decrement(s, id)
    ensures HasId(s, id) && FirstWith(s, id).quantity <= 1 ==> r == Without(s, id) && !HasId(r, id)
  {
    if !HasId(s, id) then s
    else if FirstWith(s, id).quantity > 1 then Decrement(s, id)
    else Without(s, id)
  }

  /** Ids are unique and every line holds at least one unit. */
  predicate Valid(s: seq<Item>) {
    UniqueIds(s) && (forall i :: 0 <= i < |s| ==> s[i].quantity >= 1)
  }

  predicate UniqueIds(s: seq<Item>) {
    forall i, j :: 0 <= i < j < |s| ==> s[i].id != s[j].id
  }

  function TotalQuantity(s: seq<Item>): (r: int)
    ensures (forall i :: 0 <= i < |s| ==> s[i].quantity >= 1) ==> r >= |s|
  {
    if s == [] then 0 else s[0].quantity + TotalQuantity(s[1..])
  }

  function LineTotal(x: Item): int {
    x.price * x.quantity
  }

  function TotalPrice(s: seq<Item>): int {
    if s == [] then 0 else LineTotal(s[0]) + TotalPrice(s[1..])
  }

  lemma {:induction false} AddOneKeepsValid(s: seq<Item>, p: Product)
    requires Valid(s)
    ensures Valid(AddOne(s, p))
  {
    var r := AddOne(s, p);
    if HasId(s, p.id) {
      StepsAt(s, p.id);
    } else {
      assert forall i :: 0 <= i < |s| ==> r[i] == s[i];
    }
  }

  lemma {:induction false} TakeOneKeepsValid(s: seq<Item>, id: string)
    requires Valid(s)
    ensures Valid(TakeOne(s, id))
  {
    if HasId(s, id) && FirstWith(s, id).quantity <= 1 {
      WithoutKeepsValid(s, id);
    } else if HasId(s, id) {
      var r := Decrement(s, id);
      StepsAt(s, id);
      forall i | 0 <= i < |r|
        ensures r[i].quantity >= 1
      {
        if s[i].id == id {
          assert FirstWith(s, id) == s[i];
        }
      }
    }
  }

  lemma {:induction false} WithoutKeepsValid(s: seq<Item>, id: string)
    requires Valid(s)
    ensures Valid(Without(s, id))
  {
    WithoutMembers(s, id);
    var r := Without(s, id);
    forall i | 0 <= i < |r|
      ensures r[i].quantity >= 1
    {
      assert r[i] in s;
    }
    WithoutUnique(s, id);
  }

  /** `filter` keeps exactly the lines with another id. */
  lemma {:induction false} WithoutMembers(s: seq<Item>, id: string)
    ensures forall x :: x in Without(s, id) <==> x in s && x.id != id
  {
    if s != [] {
      WithoutMembers(s[1..], id);
      assert forall x :: x in s <==> x == s[0] || x in s[1..];
    }
  }

  lemma {:induction false} WithoutUnique(s: seq<Item>, id: string)
    requires UniqueIds(s)
    ensures UniqueIds(Without(s, id))
  {
    if s != [] {
      UniqueTail(s);
      WithoutUnique(s[1..], id);
      if s[0].id != id {
        WithoutMembers(s[1..], id);
        ConsUnique(s[0], Without(s[1..], id));
      }
    }
  }

  lemma UniqueTail(s: seq<Item>)
    requires UniqueIds(s) && s != []
    ensures UniqueIds(s[1..])
    ensures forall y :: y in s[1..] ==> y.id != s[0].id
  {
    var tail := s[1..];
    assert forall i :: 0 <= i < |tail| ==> tail[i] == s[i + 1];
  }

  lemma ConsUnique(x: Item, rest: seq<Item>)
    requires UniqueIds(rest)
    requires forall y :: y in rest ==> y.id != x.id
    ensures UniqueIds([x] + rest)
  {
    var r := [x] + rest;
    forall i, j | 0 <= i < j < |r|
      ensures r[i].id != r[j].id
    {
      assert r[j] == rest[j - 1];
      if i > 0 {
        assert r[i] == rest[i - 1];
      }
    }
  }

  lemma {:induction false} DecrementIncrement(s: seq<Item>, id: string)
    ensures Decrement(Increment(s, id), id) == s
  {
    var r := Decrement(Increment(s, id), id);
    StepsAt(s, id);
    StepsAt(Increment(s, id), id);
    assert forall i :: 0 <= i < |s| ==> r[i] == s[i];
  }

  lemma {:induction false} IncrementDecrement(s: seq<Item>, id: string)
    ensures Increment(Decrement(s, id), id) == s
  {
    var r := Increment(Decrement(s, id), id);
    StepsAt(s, id);
    StepsAt(Decrement(s, id), id);
    assert forall i :: 0 <= i < |s| ==> r[i] == s[i];
  }

  lemma {:induction false} FirstAfterIncrement(s: seq<Item>, id: string)
    requires HasId(s, id)
    ensures HasId(Increment(s, id), id)
    ensures FirstWith(Increment(s, id), id).quantity == FirstWith(s, id).quantity + 1
  {
    var t := Increment(s, id);
    var f := FirstWith(s, id);
    var i :| 0 <= i < |s| && s[i] == f && forall j :: 0 <= j < i ==> s[j].id != id;
    StepAt(s, id, i);
    assert t[i].id == id;
    var g := FirstWith(t, id);
    var k :| 0 <= k < |t| && t[k] == g && forall j :: 0 <= j < k ==> t[j].id != id;
    StepAt(s, id, k);
    assert k == i;
  }

  /** Taking one unit of a product just added restores the cart. */
  lemma {:induction false} TakeOneUndoesAddOne(s: seq<Item>, p: Product)
    requires Valid(s)
    ensures TakeOne(AddOne(s, p), p.id) == s
  {
    var t := AddOne(s, p);
    if HasId(s, p.id) {
      FirstAfterIncrement(s, p.id);
      var i :| 0 <= i < |s| && s[i] == FirstWith(s, p.id);
      DecrementIncrement(s, p.id);
    } else {
      var x := Item(p.id, p.name, p.price, 1, p.image);
      assert FirstWith(t, p.id) == x by {
        assert forall j :: 0 <= j < |s| ==> t[j] == s[j] && t[j].id != p.id;
      }
      WithoutAppend(s, x, p.id);
      assert Without(s, p.id) == s;
    }
  }

  lemma {:induction false} WithoutAppend(s: seq<Item>, x: Item, id: string)
    requires x.id == id
    ensures Without(s + [x], id) == Without(s, id)
  {
    if s == [] {
      assert Without([x], id) == Without([x][1..], id);
    } else {
      assert (s + [x])[1..] == s[1..] + [x];
      WithoutAppend(s[1..], x, id);
    }
  }

  /** Adding a unit back after taking one from a line of several restores the cart. */
  lemma AddOneUndoesTakeOne(s: seq<Item>, p: Product)
    requires HasId(s, p.id) && FirstWith(s, p.id).quantity > 1
    ensures AddOne(TakeOne(s, p.id), p) == s
  {
    var t := Decrement(s, p.id);
    var i :| 0 <= i < |s| && s[i].id == p.id;
    StepAt(s, p.id, i);
    IncrementDecrement(s, p.id);
  }

  /** One more unit: the quantity total grows by one and the price total by
      the price of the line that received it. */
  lemma {:induction false} AddOneTotals(s: seq<Item>, p: Product)
    requires Valid(s)
    ensures TotalQuantity(AddOne(s, p)) == TotalQuantity(s) + 1
    ensures !HasId(s, p.id) ==> TotalPrice(AddOne(s, p)) == TotalPrice(s) + p.price
    ensures HasId(s, p.id) ==> TotalPrice(AddOne(s, p)) == TotalPrice(s) + FirstWith(s, p.id).price
  {
    if HasId(s, p.id) {
      IncrementTotals(s, p.id);
    } else {
      AppendTotals(s, Item(p.id, p.name, p.price, 1, p.image));
    }
  }

  lemma {:induction false} IncrementTotals(s: seq<Item>, id: string)
    requires UniqueIds(s) && HasId(s, id)
    ensures TotalQuantity(Increment(s, id)) == TotalQuantity(s) + 1
    ensures TotalPrice(Increment(s, id)) == TotalPrice(s) + FirstWith(s, id).price
    decreases |s|, 1
  {
    if s[0].id == id {
      IncrementAtHead(s, id);
    } else {
      IncrementPastHead(s, id);
    }
  }

  lemma {:induction false} IncrementPastHead(s: seq<Item>, id: string)
    requires UniqueIds(s) && HasId(s, id) && s[0].id != id
    ensures TotalQuantity(Increment(s, id)) == TotalQuantity(s) + 1
    ensures TotalPrice(Increment(s, id)) == TotalPrice(s) + FirstWith(s, id).price
    decreases |s|, 0
  {
    var t := Increment(s, id);
    assert t[1..] == Increment(s[1..], id);
    var i :| 0 <= i < |s| && s[i].id == id;
    assert s[1..][i - 1].id == id;
    IncrementTotals(s[1..], id);
    assert t[0] == s[0];
  }

  /** With unique ids, a match at the head is the only one. */
  lemma IncrementAtHead(s: seq<Item>, id: string)
    requires UniqueIds(s) && s != [] && s[0].id == id
    ensures TotalQuantity(Increment(s, id)) == TotalQuantity(s) + 1
    ensures TotalPrice(Increment(s, id)) == TotalPrice(s) + s[0].price
  {
    var t, tail := Increment(s, id), s[1..];
    TailUnaffected(s);
    var h := s[0].(quantity := s[0].quantity + 1);
    assert t[0] == h && t[1..] == tail;
    assert TotalPrice(t) == LineTotal(h) + TotalPrice(tail);
    OneMore(s[0]);
  }

  /** With unique ids, incrementing the head's id leaves the rest alone. */
  lemma TailUnaffected(s: seq<Item>)
    requires UniqueIds(s) && s != []
    ensures Increment(s, s[0].id)[1..] == s[1..]
  {
    var id, tail := s[0].id, s[1..];
    assert Increment(s, id)[1..] == Increment(tail, id);
    UniqueTail(s);
    assert !HasId(tail, id) by {
      forall i | 0 <= i < |tail|
        ensures tail[i].id != id
      {
        assert tail[i] in tail;
      }
    }
    IncrementAbsent(tail, id);
  }

  lemma OneMore(x: Item)
    ensures LineTotal(x.(quantity := x.quantity + 1)) == LineTotal(x) + x.price
  {
    var p, q := x.price, x.quantity;
    assert p * (q + 1) == p * q + p;
  }

  lemma {:induction false} AppendTotals(s: seq<Item>, x: Item)
    ensures TotalQuantity(s + [x]) == TotalQuantity(s) + x.quantity
    ensures TotalPrice(s + [x]) == TotalPrice(s) + LineTotal(x)
  {
    if s != [] {
      assert (s + [x])[1..] == s[1..] + [x];
      AppendTotals(s[1..], x);
    }
  }

  /** What hydration finds under the storage key. */
  datatype Stored = Absent | Unparsable | Parsed(items: seq<Item>)

  class Cart {
    var items: seq<Item>
    /** The last value written to storage. */
    var persisted: seq<Item>

    predicate Saved()
      reads this
    {
      persisted == items
    }

    constructor()
      ensures items == [] && Saved()
    {
      items := [];
      persisted := [];
    }

    /** Hydration: parsed contents replace the cart; a missing or unparsable
        value leaves it as it is. */
    method Hydrate(stored: Stored)
      modifies this
      ensures stored.Parsed? ==> items == stored.items
      ensures !stored.Parsed? ==> items == old(items)
      ensures Saved()
    {
      if stored.Parsed? {
        items := stored.items;
      }
      persisted := items;
    }

    method AddItem(p: Product)
      modifies this
      ensures items == AddOne(old(items), p)
      ensures Valid(old(items)) ==> Valid(items) && TotalQuantity(items) == TotalQuantity(old(items)) + 1
      ensures Saved()
    {
      if Valid(items) {
        AddOneKeepsValid(items, p);
        AddOneTotals(items, p);
      }
      items := AddOne(items, p);
      persisted := items;
    }

    method RemoveItem(id: string)
      modifies this
      ensures items == TakeOne(old(items), id)
      ensures Valid(old(items)) ==> Valid(items)
      ensures Saved()
    {
      if Valid(items) {
        TakeOneKeepsValid(items, id);
      }
      items := TakeOne(items, id);
      persisted := items;
    }

    method Clear()
      modifies this
      ensures items == [] && Saved()
    {
      items := [];
      persisted := items;
    }
  }
}

=== FILE: menu_data.dfy ===
/** The menu normaliser (utils/menu.ts): keeps the parts of a parsed menu the
    pages rely on and fills in defaults for the rest. */
module MenuData {
  import opened Common

  /** A parsed JSON value. Numbers are kept as integers; `NaN` and fractions
      play no part in the normaliser. */
  datatype Json =
    | JNull
    | JBool(b: bool)
    | JNumber(n: int)
    | JString(s: string)
    | JArray(elems: seq<Json>)
    | JObject(fields: map<string, Json>)

  datatype NormalizedMenu = NormalizedMenu(categories: seq<Json>, dishes: seq<Json>, currency: string)

  /** JavaScript truthiness of a defined value. */
  predicate Truthy(v: Json) {
    match v
    case JNull => false
    case JBool(b) => b
    case JNumber(n) => n != 0
    case JString(s) => s != ""
    case _ => true
  }

  /** `raw.key`: a missing property (and any property of an array) reads as
      undefined. */
  function Property(raw: Json, key: string): Option<Json> {
    if raw.JObject? && key in raw.fields then Some(raw.fields[key]) else None
  }

  /** `Array.isArray(raw.key) ? raw.key : []`. */
  function ArrayOr(raw: Json, key: string): (r: seq<Json>)
    ensures Property(raw, key).Some? && Property(raw, key).value.JArray? ==>
      r == Property(raw, key).value.elems
    ensures !(Property(raw, key).Some? && Property(raw, key).value.JArray?) ==> r == []
  {
    var v := Property(raw, key);
    if v.Some? && v.value.JArray? then v.value.elems else []
  }

  /** `validateMenuData`. `raw` is None for `undefined`. */
  function ValidateMenuData(raw: Option<Json>): (r: Option<NormalizedMenu>)
    ensures r.None? <==> raw.None? || !Truthy(raw.value) || !(raw.value.JArray? || raw.value.JObject?)
    ensures r.Some? ==> r.value.currency != ""
    ensures r.Some? ==> r.value.categories == ArrayOr(raw.value, "categories")
    ensures r.Some? ==> r.value.dishes == ArrayOr(raw.value, "dishes")
    ensures r.Some? ==>
      var c := Property(raw.value, "currency");
      r.value.currency == if c.Some? && c.value.JString? && c.value.s != "" then c.value.s else "BHD"
  {
    if raw.None? || !Truthy(raw.value) then None
    else if !(raw.value.JArray? || raw.value.JObject?) then None
    else
      var v := raw.value;
      var currency := Property(v, "currency");
      Some(NormalizedMenu(
        ArrayOr(v, "categories"),
        ArrayOr(v, "dishes"),
        if currency.Some? && currency.value.JString? && currency.value.s != "" then currency.value.s else "BHD"))
  }

  /** The normalised menu as a JSON object again. */
  function ToJson(m: NormalizedMenu): Json {
    JObject(map["categories" := JArray(m.categories), "dishes" := JArray(m.dishes), "currency" := JString(m.currency)])
  }

  /** Normalising an already normalised menu gives it back unchanged. */
  lemma ValidateIdempotent(raw: Option<Json>)
    requires ValidateMenuData(raw).Some?
    ensures ValidateMenuData(Some(ToJson(ValidateMenuData(raw).value))) == ValidateMenuData(raw)
  {
    var m := ValidateMenuData(raw).value;
    var j := ToJson(m);
    assert Property(j, "categories") == Some(JArray(m.categories));
    assert Property(j, "dishes") == Some(JArray(m.dishes));
    assert Property(j, "currency") == Some(JString(m.currency));
  }

  /** The list fields read back from the normalised object are the lists
      that were put in, and an array has no list fields at all. */
  lemma ArrayFieldsOfToJson(m: NormalizedMenu, elems: seq<Json>)
    ensures ArrayOr(ToJson(m), "categories") == m.categories
    ensures ArrayOr(ToJson(m), "dishes") == m.dishes
    ensures ArrayOr(JArray(elems), "categories") == [] && ArrayOr(JArray(elems), "dishes") == []
  {
    assert Property(ToJson(m), "categories") == Some(JArray(m.categories));
    assert Property(ToJson(m), "dishes") == Some(JArray(m.dishes));
  }

  /** An object without any of the three fields normalises to the empty menu
      in the default currency. */
  lemma EmptyObjectDefaults()
    ensures ValidateMenuData(Some(JObject(map[]))) == Some(NormalizedMenu([], [], "BHD"))
  {
  }
}

=== FILE: menu_item_card.dfy ===
/** The menu card of the main site (components/MenuItemCard.tsx): the name and
    price text it shows, and how a click on its add button is turned into a
    call of the cart's `addItem`, possibly after asking for a size. */
module MenuItemCard {
  import opened Common
  import opened Catalog
  import opened NumberText
  import CartStore
  import OrderMessage

  /** The shown name: the active language's text of a language map, or the
      plain string. */
  function DisplayName(n: Name, lang: Lang): (r: string)
    ensures n.Text? ==> r == n.text
    ensures n.Localized? ==> r == (if lang == En then n.en else n.ar)
    ensures n.NoName? ==> r == ""
  {
    match n
    case NoName => ""
    case Text(t) => t
    case Localized(en, ar) => if lang == En then en else ar
  }

  /** The card's name against the two other name rules. The line the cart
      stores carries the English name whenever there is one, so it agrees
      with the card in English but not in Arabic when the two texts differ.
      The message composer's own rule prefers the active language, so on a
      catalog name it would print what the card shows; the composer is
      handed cart lines, though, not catalog names (`MessageNameOfAddedDish`). */
  lemma CardNameAgainstCartAndMessage(n: Name, lang: Lang)
    ensures n.Text? ==> DisplayName(n, lang) == CartStore.StoredName(n)
    ensures n.Localized? && n.en != "" && lang == En ==> DisplayName(n, lang) == CartStore.StoredName(n)
    ensures n.Localized? && n.en != "" && n.ar != n.en && lang == Ar ==>
      DisplayName(n, lang) != CartStore.StoredName(n)
    ensures DisplayName(n, lang) != "" ==> OrderMessage.ItemName(n, lang) == DisplayName(n, lang)
  {
  }

  /** The name the order message prints for a dish added from the card is
      the name the cart stored, whatever the language: English first. In
      Arabic it therefore differs from the card's name whenever the dish has
      an English name and a different Arabic one; in English the two agree. */
  lemma MessageNameOfAddedDish(entry: CatalogEntry, opts: CartStore.AddOptions, randomId: string, lang: Lang)
    ensures var printed := OrderMessage.ItemName(OrderMessage.FromCartItem(CartStore.NewLine(entry, opts, randomId)).name, lang);
      && printed == CartStore.StoredName(entry.name)
      && (entry.name.Localized? && entry.name.en != "" && entry.name.ar != entry.name.en && lang == Ar ==>
            printed != DisplayName(entry.name, lang))
      && (lang == En && (entry.name.Text? || (entry.name.Localized? && entry.name.en != "")) ==>
            printed == DisplayName(entry.name, lang))
  {
  }

  function DefaultPriceText(lang: Lang): string {
    if lang == Ar then "السعر عند الطلب" else "Price on request"
  }

  /** The price text: a numeric price with three decimals and the currency;
      otherwise a non-blank label string, else the label map's text for the
      active language, else the default wording. */
  function PriceDisplay(entry: CatalogEntry, currency: string, lang: Lang): (r: string)
    ensures r != []
    ensures entry.price.Number? ==>
      r == ToFixed(entry.price.fils, 3) + " " + currency
    ensures !entry.price.Number? && entry.priceLabel.LabelText? && Trim(entry.priceLabel.text) != [] ==>
      r == entry.priceLabel.text
    ensures !entry.price.Number? && entry.priceLabel.LabelText? && Trim(entry.priceLabel.text) == [] ==>
      r == DefaultPriceText(lang)
    ensures !entry.price.Number? && entry.priceLabel.LabelMap? ==>
      var own := if lang == En then entry.priceLabel.en else entry.priceLabel.ar;
      r == if own != "" then own else DefaultPriceText(lang)
    ensures !entry.price.Number? && entry.priceLabel.NoLabel? ==> r == DefaultPriceText(lang)
  {
    match entry.price
    case Number(p) => ToFixed(p, 3) + " " + currency
    case _ =>
      match entry.priceLabel
      case LabelText(t) => if Trim(t) != [] then t else DefaultPriceText(lang)
      case LabelMap(en, ar) =>
        var own := if lang == En then en else ar;
        if own != "" then own else DefaultPriceText(lang)
      case NoLabel => DefaultPriceText(lang)
  }

  /** A non-negative price is shown as a decimal number that reads back as
      the price, followed by the currency. */
  lemma PriceTextReadsBack(entry: CatalogEntry, currency: string, lang: Lang)
    requires entry.price.Number? && entry.price.fils >= 0
    ensures var r := PriceDisplay(entry, currency, lang);
      var amount := ToFixed(entry.price.fils, 3);
      && r == amount + " " + currency
      && |amount| >= 5 && amount[|amount| - 4] == '.'
      && (forall i :: 0 <= i < |amount| && i != |amount| - 4 ==> IsDigit(amount[i]))
      && ReadFixed3(amount) == entry.price.fils
  {
    ToFixed3RoundTrip(entry.price.fils);
  }

  /** What a click on the add button does. */
  datatype Dispatch = NoAdd | AddPlain | AddSized(index: nat, sizeLabel: string)

  /** The label handed over with a chosen size: its label, else its name,
      else its 1-based position. */
  function ChosenSizeLabel(s: SizeOption, idx: nat): (r: string)
    ensures r != ""
    ensures s.labelText != "" ==> r == s.labelText
    ensures s.labelText == "" && s.name != "" ==> r == s.name
  {
    if s.labelText != "" then s.labelText
    else if s.name != "" then s.name
    else DecimalString(idx + 1)
  }

  /** The size prompt is shown for an explicit `null` price with a non-empty
      `sizes` array. */
  predicate AsksForSize(entry: CatalogEntry) {
    entry.price.Null? && entry.sizes.SizeList? && |entry.sizes.options| > 0
  }

  /** `handleAdd`. `answer` is the prompt's answer (empty when cancelled or
      blank) and `parsed` the result of `parseInt(answer, 10)` (None for NaN). */
  function Decide(entry: CatalogEntry, answer: string, parsed: Option<int>): (d: Dispatch)
    ensures entry.price.Number? ==> d == AddPlain
    ensures !AsksForSize(entry) ==> d == AddPlain
    ensures d.AddSized? <==>
      AsksForSize(entry) && answer != "" && parsed.Some? && 1 <= parsed.value <= |entry.sizes.options|
    ensures d.AddSized? ==> d.index == parsed.value - 1
    ensures d.AddSized? ==> d.sizeLabel == ChosenSizeLabel(entry.sizes.options[d.index], d.index)
    ensures AsksForSize(entry) ==> !d.AddPlain?
  {
    if entry.price.Number? then AddPlain
    else if AsksForSize(entry) then
      if answer == "" then NoAdd
      else if parsed.None? then NoAdd
      else
        var idx := parsed.value - 1;
        if idx < 0 || idx >= |entry.sizes.options| then NoAdd
        else AddSized(idx, ChosenSizeLabel(entry.sizes.options[idx], idx))
    else AddPlain
  }

  /** The options object passed to `addItem`. */
  function Options(d: Dispatch): CartStore.AddOptions {
    match d
    case AddSized(i, l) => CartStore.AddOptions(Some(i), l)
    case _ => CartStore.NoOptions
  }

  /** A size chosen on the card reaches the cart as a line of its own, keyed
      `{id}-size-{index}`, carrying the card's size label. */
  lemma SizedDispatchMakesSizedLine(entry: CatalogEntry, answer: string, parsed: Option<int>, randomId: string)
    requires Decide(entry, answer, parsed).AddSized?
    ensures var d := Decide(entry, answer, parsed);
      var line := CartStore.NewLine(entry, Options(d), randomId);
      && line.id == CartStore.BaseId(entry, randomId) + "-size-" + DecimalString(d.index)
      && line.sizeIndex == Some(d.index)
      && line.sizeLabel == Some(d.sizeLabel)
  {
  }

  /** A click on a card with a numeric price adds the catalog id at that price. */
  lemma FixedPriceDispatch(entry: CatalogEntry, answer: string, parsed: Option<int>, randomId: string)
    requires entry.price.Number?
    ensures var line := CartStore.NewLine(entry, Options(Decide(entry, answer, parsed)), randomId);
      line.id == CartStore.BaseId(entry, randomId) && line.price == entry.price.fils &&
      line.includedInTotal == Some(true)
  {
  }

  /** The card: its `added` flag, and the cart it adds to. */
  class Card {
    const cart: CartStore.Cart
    var added: bool

    constructor(cart: CartStore.Cart)
      ensures this.cart == cart && !added
    {
      this.cart := cart;
      added := false;
    }

    /** A click on the add button. */
    method HandleAdd(entry: CatalogEntry, answer: string, parsed: Option<int>, randomId: string)
      returns (d: Dispatch)
      modifies this, cart
      ensures d == Decide(entry, answer, parsed)
      ensures d.NoAdd? ==>
        cart.items == old(cart.items) && cart.persisted == old(cart.persisted) && added == old(added)
      ensures !d.NoAdd? ==>
        cart.items == CartStore.AddLine(old(cart.items), CartStore.NewLine(entry, Options(d), randomId)) &&
        cart.Saved() && added
    {
      d := Decide(entry, answer, parsed);
      if d.NoAdd? {
        return;
      }
      cart.AddToCart(entry, Options(d), randomId);
      added := true;
    }

    /** The timer that clears the confirmation 1.2 seconds later. */
    method ResetAdded()
      modifies this
      ensures !added
    {
      added := false;
    }
  }
}

=== FILE: number_text.dfy ===
/** `Number.prototype.toFixed` on prices held as integer thousandths. */
module NumberText {
  import opened Common

  function Pow10(n: nat): (r: nat)
    ensures r >= 1
  {
    if n == 0 then 1 else 10 * Pow10(n - 1)
  }

  /** `n` with its last `k` decimal digits dropped. */
  function DropDigits(n: nat, k: nat): nat {
    if k == 0 then n else DropDigits(n / 10, k - 1)
  }

  /** The last `k` decimal digits of `n`, zero-padded to exactly `k` characters. */
  function LastDigits(n: nat, k: nat): (r: string)
    ensures |r| == k
    ensures forall i :: 0 <= i < |r| ==> IsDigit(r[i])
  {
    if k == 0 then "" else LastDigits(n / 10, k - 1) + [DigitChar(n % 10)]
  }

  /** Splitting off the last `k` digits loses nothing. */
  lemma {:induction false} SplitDigits(n: nat, k: nat)
    ensures DropDigits(n, k) * Pow10(k) + DigitsValue(LastDigits(n, k)) == n
  {
    if k > 0 {
      SplitDigits(n / 10, k - 1);
      var tail := LastDigits(n / 10, k - 1);
      var r := LastDigits(n, k);
      assert r[..|r| - 1] == tail;
      assert DigitsValue(r) == 10 * DigitsValue(tail) + n % 10;
      Recombine(DropDigits(n, k), Pow10(k - 1), DigitsValue(tail), n);
    }
  }

  lemma Recombine(d: nat, p: nat, t: nat, n: nat)
    requires d * p + t == n / 10
    ensures d * (10 * p) + (10 * t + n % 10) == n
  {
    assert d * (10 * p) == 10 * (d * p);
  }

  /** `m` followed by `k` zero digits. */
  function Widen(m: nat, k: nat): nat {
    if k == 0 then m else 10 * Widen(m, k - 1)
  }

  /** The magnitude `m` (in thousandths) as a count of units of 10^-decimals:
      scaled up when `decimals` exceeds 3, rounded half up otherwise (adding
      half a unit, then dropping the digits below the unit). */
  function Scaled(m: nat, decimals: nat): nat {
    if decimals >= 3 then Widen(m, decimals - 3)
    else DropDigits(m + 5 * Pow10(2 - decimals), 3 - decimals)
  }

  /** Scaling is exact multiplication by a power of ten when there are more
      decimals than thousandths, and half-up rounded division otherwise. */
  lemma ScaledArithmetic(m: nat, decimals: nat)
    ensures decimals >= 3 ==> Scaled(m, decimals) == m * Pow10(decimals - 3)
    ensures decimals < 3 ==>
      Scaled(m, decimals) == (m + Pow10(3 - decimals) / 2) / Pow10(3 - decimals)
  {
    if decimals >= 3 {
      WidenIsProduct(m, decimals - 3);
    } else {
      assert Pow10(3 - decimals) == 10 * Pow10(2 - decimals);
      DropDigitsIsDivision(m + 5 * Pow10(2 - decimals), 3 - decimals);
    }
  }

  lemma {:induction false} WidenIsProduct(m: nat, k: nat)
    ensures Widen(m, k) == m * Pow10(k)
  {
    if k > 0 {
      WidenIsProduct(m, k - 1);
      var p := Pow10(k - 1);
      assert 10 * (m * p) == m * (10 * p);
    }
  }

  lemma DropDigitsIsDivision(n: nat, k: nat)
    ensures DropDigits(n, k) == n / Pow10(k)
  {
    SplitDigits(n, k);
    DigitsBelow(LastDigits(n, k));
    DivOfSum(n, DropDigits(n, k), Pow10(k), DigitsValue(LastDigits(n, k)));
  }

  /** `scaled` units of 10^-decimals written as whole part, point, and
      exactly `decimals` fraction digits. */
  function FixedDigits(scaled: nat, decimals: nat): (r: string)
    ensures |r| > decimals
    ensures IsDigit(r[0])
    ensures decimals > 0 ==> r[|r| - decimals - 1] == '.'
    ensures forall i :: |r| - decimals <= i < |r| ==> IsDigit(r[i])
  {
    var whole := DecimalString(DropDigits(scaled, decimals));
    if decimals == 0 then whole
    else
      var fraction := LastDigits(scaled, decimals);
      var r := whole + "." + fraction;
      assert forall i :: |r| - decimals <= i < |r| ==> r[i] == fraction[i - |whole| - 1];
      r
  }

  /** `(v / 1000).toFixed(decimals)`, with a minus sign for a negative value. */
  function ToFixed(v: int, decimals: nat): (r: string)
    ensures |r| > decimals
    ensures (v < 0) <==> r[0] == '-'
    ensures decimals > 0 ==> r[|r| - decimals - 1] == '.'
    ensures forall i :: |r| - decimals <= i < |r| ==> IsDigit(r[i])
  {
    var digits := FixedDigits(Scaled(if v < 0 then -v else v, decimals), decimals);
    if v < 0 then "-" + digits else digits
  }

  /** Digits, then (with `d > 0`) a point followed by exactly `d` digits. */
  predicate FixedShape(s: string, d: nat) {
    && |s| > d
    && (d > 0 ==> |s| >= d + 2 && s[|s| - d - 1] == '.')
    && (forall i :: 0 <= i < |s| && (d == 0 || i != |s| - d - 1) ==> IsDigit(s[i]))
  }

  /** The number of 10^-d units such a text denotes. */
  function ReadFixed(s: string, d: nat): nat
    requires FixedShape(s, d)
  {
    if d == 0 then DigitsValue(s)
    else
      var whole, fraction := s[..|s| - d - 1], s[|s| - d..];
      assert forall i :: 0 <= i < |whole| ==> whole[i] == s[i];
      assert forall i :: 0 <= i < |fraction| ==> fraction[i] == s[|s| - d + i];
      DigitsValue(whole) * Pow10(d) + DigitsValue(fraction)
  }

  /** Whatever the number of decimals, the digits of `toFixed(d)` (after the
      sign) denote the amount in units of 10^-d: exactly when d is 3 or more,
      rounded half up otherwise. */
  lemma ToFixedReadsBack(v: int, d: nat)
    ensures var s, m := ToFixed(v, d), if v < 0 then -v else v;
      var digits := if v < 0 then s[1..] else s;
      && FixedShape(digits, d)
      && ReadFixed(digits, d) == Scaled(m, d)
      && (d >= 3 ==> ReadFixed(digits, d) == m * Pow10(d - 3))
      && (d < 3 ==> ReadFixed(digits, d) == (m + Pow10(3 - d) / 2) / Pow10(3 - d))
  {
    var m := if v < 0 then -v else v;
    SignThenDigits(v, d);
    FixedDigitsRead(Scaled(m, d), d);
    ScaledArithmetic(m, d);
  }

  lemma SignThenDigits(v: int, d: nat)
    ensures var s, digits := ToFixed(v, d), FixedDigits(Scaled(if v < 0 then -v else v, d), d);
      (if v < 0 then s[1..] else s) == digits
  {
    var digits := FixedDigits(Scaled(if v < 0 then -v else v, d), d);
    if v < 0 {
      assert ("-" + digits)[1..] == digits;
    }
  }

  lemma FixedDigitsRead(scaled: nat, d: nat)
    ensures FixedShape(FixedDigits(scaled, d), d)
    ensures ReadFixed(FixedDigits(scaled, d), d) == scaled
  {
    var whole := DecimalString(DropDigits(scaled, d));
    SplitDigits(scaled, d);
    if d == 0 {
      assert FixedDigits(scaled, d) == whole;
    } else {
      var fraction := LastDigits(scaled, d);
      assert FixedDigits(scaled, d) == whole + "." + fraction;
      PointedRead(whole, fraction);
    }
  }

  /** Whole digits, a point and fraction digits read back as their parts. */
  lemma PointedRead(whole: string, fraction: string)
    requires |whole| >= 1 && |fraction| >= 1
    requires forall i :: 0 <= i < |whole| ==> IsDigit(whole[i])
    requires forall i :: 0 <= i < |fraction| ==> IsDigit(fraction[i])
    ensures FixedShape(whole + "." + fraction, |fraction|)
    ensures ReadFixed(whole + "." + fraction, |fraction|)
         == DigitsValue(whole) * Pow10(|fraction|) + DigitsValue(fraction)
  {
    var r, d := whole + "." + fraction, |fraction|;
    assert forall i :: 0 <= i < |whole| ==> r[i] == whole[i];
    assert forall i :: |whole| < i < |r| ==> r[i] == fraction[i - |whole| - 1];
    assert r[..|r| - d - 1] == whole;
    assert r[|r| - d..] == fraction;
  }

  /** Reads back a non-negative amount written with three decimals. */
  function ReadFixed3(s: string): int
    requires |s| >= 5 && s[|s| - 4] == '.'
    requires forall i :: 0 <= i < |s| && i != |s| - 4 ==> IsDigit(s[i])
  {
    DigitsValue(s[..|s| - 4]) * 1000 + DigitsValue(s[|s| - 3..])
  }

  /** With three decimals no rounding happens: the text of a non-negative
      amount reads back as that amount. */
  lemma {:induction false} ToFixed3RoundTrip(v: nat)
    ensures var s := ToFixed(v, 3);
            |s| >= 5 && s[|s| - 4] == '.' &&
            (forall i :: 0 <= i < |s| && i != |s| - 4 ==> IsDigit(s[i])) &&
            ReadFixed3(s) == v
  {
    assert Pow10(3) == 1000 && Pow10(0) == 1;
    assert Scaled(v, 3) == v;
    var whole := DecimalString(DropDigits(v, 3));
    var fraction := LastDigits(v, 3);
    var s := ToFixed(v, 3);
    assert s == whole + "." + fraction;
    assert s[..|s| - 4] == whole;
    assert s[|s| - 3..] == fraction;
    SplitDigits(v, 3);
  }

  /** A string of k digits denotes a number below 10^k. */
  lemma {:induction false} DigitsBelow(s: string)
    requires forall i :: 0 <= i < |s| ==> IsDigit(s[i])
    ensures DigitsValue(s) < Pow10(|s|)
  {
    if s != [] {
      DigitsBelow(s[..|s| - 1]);
    }
  }

  /** The value of a digit string, split before its last k digits. */
  lemma {:induction false} DigitsSuffix(s: string, k: nat)
    requires k <= |s|
    requires forall i :: 0 <= i < |s| ==> IsDigit(s[i])
    ensures DigitsValue(s) == DigitsValue(s[..|s| - k]) * Pow10(k) + DigitsValue(s[|s| - k..])
  {
    if k == 0 {
      assert s[..|s|] == s;
    } else {
      var init := s[..|s| - 1];
      var head, mid, tail := s[..|s| - k], s[|s| - k..|s| - 1], s[|s| - k..];
      assert init[..|init| - (k - 1)] == head;
      assert init[|init| - (k - 1)..] == mid;
      assert tail[..|tail| - 1] == mid;
      DigitsSuffix(init, k - 1);
      SuffixArithmetic(DigitsValue(s), DigitsValue(init), DigitsValue(tail),
                       DigitsValue(head), Pow10(k - 1), DigitsValue(mid), DigitValue(s[|s| - 1]));
    }
  }

  lemma SuffixArithmetic(whole: nat, init: nat, tail: nat, a: nat, p: nat, b: nat, c: nat)
    requires init == a * p + b && tail == 10 * b + c && whole == 10 * init + c
    ensures whole == a * (10 * p) + tail
  {
    Recombine2(a, p, b, c);
  }

  lemma Recombine2(a: nat, p: nat, b: nat, c: nat)
    ensures 10 * (a * p + b) + c == a * (10 * p) + (10 * b + c)
  {
    assert a * (10 * p) == 10 * (a * p);
  }

  /** The last k digits of a number's decimal text denote the number modulo 10^k. */
  lemma LastDigitsValue(s: string, k: nat)
    requires k <= |s|
    requires forall i :: 0 <= i < |s| ==> IsDigit(s[i])
    ensures DigitsValue(s[|s| - k..]) == DigitsValue(s) % Pow10(k)
  {
    DigitsSuffix(s, k);
    var tail := s[|s| - k..];
    DigitsBelow(tail);
    var a, p, b := DigitsValue(s[..|s| - k]), Pow10(k), DigitsValue(tail);
    ModOfSum(DigitsValue(s), a, p, b);
  }

  lemma ModOfSum(n: nat, a: nat, p: nat, b: nat)
    requires b < p && n == a * p + b
    ensures n % p == b
  {
    UniqueRemainder(a, n / p, p, b, n % p);
  }

  lemma DivOfSum(n: nat, a: nat, p: nat, b: nat)
    requires b < p && n == a * p + b
    ensures n / p == a
  {
    UniqueRemainder(a, n / p, p, b, n % p);
  }

  /** Division with remainder is unique. */
  lemma UniqueRemainder(a: int, q: int, p: int, b: int, r: int)
    requires 0 <= b < p && 0 <= r < p
    requires q * p + r == a * p + b
    ensures q == a && r == b
  {
    if q > a {
      MulAtLeast(q - a, p);
    } else if q < a {
      MulAtLeast(a - q, p);
    }
  }

  lemma MulAtLeast(x: int, p: int)
    requires x >= 1 && p > 0
    ensures x * p >= p
  {
  }
}

=== FILE: order_message.dfy ===
/** The WhatsApp order text of the main site (utils/order.ts): a header, one
    line per cart line, a total when something is priced, the branch and the
    customer's location when given, and an order number; joined with line
    breaks and percent-encoded. Amounts are integer thousandths. */
module OrderMessage {
  import opened Common
  import opened Catalog
  import opened NumberText
  import opened PercentEncoding
  import CartStore

  /** One element of the `items` array as the composer reads it. `quantity`
      is None when it is not a number; `price` is None when it is `null` or
      `undefined`; empty strings stand for missing or falsy text. */
  datatype OrderItem = OrderItem(
    name: Name,
    quantity: Option<int>,
    sizeLabel: string,
    note: string,
    includedInTotal: Option<bool>,
    price: Option<int>,
    priceLabel: string)

  /** The options object. `branchName` is empty when there is no branch or it
      has no name; `decimalPlaces` is None when it is not a number. */
  datatype WhatsAppOptions = WhatsAppOptions(
    language: Option<Lang>,
    branchName: string,
    customerLocation: string,
    currency: string,
    decimalPlaces: Option<nat>)

  function Language(opts: WhatsAppOptions): Lang {
    if opts.language.Some? then opts.language.value else Ar
  }

  function Currency(opts: WhatsAppOptions): string {
    if opts.currency != "" then opts.currency else "BHD"
  }

  function Decimals(opts: WhatsAppOptions): nat {
    if opts.decimalPlaces.Some? then opts.decimalPlaces.value else 3
  }

  /** `toFixed` throws a RangeError beyond 100 digits. */
  predicate SupportedDecimals(opts: WhatsAppOptions) {
    Decimals(opts) <= 100
  }

  function Header(lang: Lang): string {
    if lang == Ar then "طلب جديد" else "New Order"
  }

  /** The item name: a string as it is; a language map by the active language,
      then English, then Arabic; otherwise empty. */
  function ItemName(n: Name, lang: Lang): (r: string)
    ensures n.Text? ==> r == n.text
    ensures n.Localized? && lang == En && n.en != "" ==> r == n.en
    ensures n.Localized? && lang == Ar && n.ar != "" ==> r == n.ar
    ensures n.Localized? && r == "" ==> n.en == "" && n.ar == ""
    ensures n.NoName? ==> r == ""
  {
    match n
    case NoName => ""
    case Text(t) => t
    case Localized(en, ar) =>
      var own := if lang == En then en else ar;
      if own != "" then own else if en != "" then en else ar
  }

  function Quantity(it: OrderItem): int {
    if it.quantity.Some? then it.quantity.value else 1
  }

  /** Price on request: explicitly excluded, or no price at all. */
  predicate Unpriced(it: OrderItem) {
    it.includedInTotal == Some(false) || it.price.None?
  }

  /** What one item adds to the running total. */
  function LineValue(it: OrderItem): int {
    if Unpriced(it) then 0 else it.price.value * Quantity(it)
  }

  /** The text line of one item. */
  function ItemLine(it: OrderItem, lang: Lang, currency: string, decimals: nat): string {
    var size := if it.sizeLabel != "" then " - " + it.sizeLabel else "";
    var note := if it.note != "" then " (" + it.note + ")" else "";
    var head := ItemName(it.name, lang) + size + " x" + IntString(Quantity(it)) + " — ";
    if Unpriced(it) then
      head + (if it.priceLabel != "" then it.priceLabel else CartStore.PriceOnRequest) + note
    else
      head + ToFixed(it.price.value, decimals) + " " + currency + " each (" +
      ToFixed(LineValue(it), decimals) + " " + currency + ")" + note
  }

  /** One line per item, in order. */
  function ItemLines(items: seq<OrderItem>, lang: Lang, currency: string, decimals: nat): (r: seq<string>)
    ensures |r| == |items|
  {
    if items == [] then []
    else ItemLines(items[..|items| - 1], lang, currency, decimals) +
         [ItemLine(items[|items| - 1], lang, currency, decimals)]
  }

  /** Line k of the item lines renders item k. */
  lemma {:induction false} ItemLinesAt(items: seq<OrderItem>, lang: Lang, currency: string, decimals: nat, k: nat)
    requires k < |items|
    ensures ItemLines(items, lang, currency, decimals)[k] == ItemLine(items[k], lang, currency, decimals)
  {
    var init, last := items[..|items| - 1], items[|items| - 1];
    var lines := ItemLines(init, lang, currency, decimals);
    assert ItemLines(items, lang, currency, decimals) == lines + [ItemLine(last, lang, currency, decimals)];
    if k < |init| {
      ItemLinesAt(init, lang, currency, decimals, k);
      assert init[k] == items[k];
    }
  }

  /** The running total: the sum of price times quantity over priced items. */
  function PricedTotal(items: seq<OrderItem>): (r: int)
    ensures (forall i :: 0 <= i < |items| ==> Unpriced(items[i])) ==> r == 0
  {
    if items == [] then 0 else PricedTotal(items[..|items| - 1]) + LineValue(items[|items| - 1])
  }

  function TotalLine(total: int, lang: Lang, currency: string, decimals: nat): string {
    (if lang == Ar then "الإجمالي: " else "Total: ") + ToFixed(total, decimals) + " " + currency
  }

  function BranchLine(name: string, lang: Lang): string {
    (if lang == Ar then "الفرع: " else "Branch: ") + name
  }

  function LocationLine(location: string, lang: Lang): string {
    (if lang == Ar then "الموقع: " else "Location: ") + location
  }

  function OrderNumberLine(orderNumber: string, lang: Lang): string {
    (if lang == Ar then "رقم الطلب: " else "Order Number: ") + orderNumber
  }

  /** What follows the item lines: the blank and total lines when the total
      is positive, a blank line, the optional branch and location lines, and
      the order number. */
  function Trailer(total: int, opts: WhatsAppOptions, orderNumber: string): seq<string> {
    var lang := Language(opts);
    TotalPart(total, lang, Currency(opts), Decimals(opts))
    + [""]
    + BranchPart(opts.branchName, lang)
    + LocationPart(opts.customerLocation, lang)
    + [OrderNumberLine(orderNumber, lang)]
  }

  function TotalPart(total: int, lang: Lang, currency: string, decimals: nat): seq<string> {
    if total > 0 then ["", TotalLine(total, lang, currency, decimals)] else []
  }

  function BranchPart(name: string, lang: Lang): seq<string> {
    if name != "" then [BranchLine(name, lang)] else []
  }

  function LocationPart(location: string, lang: Lang): seq<string> {
    if location != "" then [LocationLine(location, lang)] else []
  }

  /** The lines the composer emits, in order. */
  function MessageLines(items: seq<OrderItem>, opts: WhatsAppOptions, orderNumber: string): seq<string> {
    [Header(Language(opts)), ""]
    + ItemLines(items, Language(opts), Currency(opts), Decimals(opts))
    + Trailer(PricedTotal(items), opts, orderNumber)
  }

  /** `lines.join('\n')`. */
  function JoinLines(lines: seq<string>): string {
    if lines == [] then ""
    else if |lines| == 1 then lines[0]
    else lines[0] + "\n" + JoinLines(lines[1..])
  }

  /** Cuts a text at every line break (the inverse of JoinLines). */
  function SplitLines(s: string): (r: seq<string>)
    ensures |r| >= 1
  {
    if s == [] then [""]
    else
      var rest := SplitLines(s[1..]);
      if s[0] == '\n' then [""] + rest else [[s[0]] + rest[0]] + rest[1..]
  }

  predicate NoLineBreak(s: string) {
    forall i :: 0 <= i < |s| ==> s[i] != '\n'
  }

  lemma {:induction false} SplitPlain(a: string, rest: string)
    requires NoLineBreak(a)
    ensures SplitLines(a + rest)[0] == a + SplitLines(rest)[0]
    ensures SplitLines(a + rest)[1..] == SplitLines(rest)[1..]
  {
    if a != [] {
      assert (a + rest)[1..] == a[1..] + rest;
      SplitPlain(a[1..], rest);
    } else {
      assert a + rest == rest;
    }
  }

  /** Joining lines that hold no line break and cutting the result at its line
      breaks gives the lines back. This covers messages whose names, notes,
      labels, branch and location are single-line texts; a line break inside
      one of them (a note typed over two lines, say) splits that line in the
      received text, and this lemma says nothing about such a message. */
  lemma {:induction false} SplitJoin(lines: seq<string>)
    requires |lines| >= 1
    requires forall i :: 0 <= i < |lines| ==> NoLineBreak(lines[i])
    ensures SplitLines(JoinLines(lines)) == lines
  {
    if |lines| == 1 {
      SplitPlain(lines[0], "");
      assert lines[0] + "" == lines[0];
      var r := SplitLines(lines[0]);
      assert r == [r[0]] + r[1..];
    } else {
      var tail := JoinLines(lines[1..]);
      SplitJoin(lines[1..]);
      assert JoinLines(lines) == lines[0] + ("\n" + tail);
      SplitPlain(lines[0], "\n" + tail);
      assert ("\n" + tail)[1..] == tail;
      var r := SplitLines(JoinLines(lines));
      assert SplitLines("\n" + tail) == [""] + lines[1..];
      assert r[0] == lines[0];
      assert r[1..] == lines[1..];
      assert r == [r[0]] + r[1..];
    }
  }

  lemma ItemStep(items: seq<OrderItem>, i: nat, lang: Lang, currency: string, decimals: nat)
    requires i < |items|
    ensures ItemLines(items[..i + 1], lang, currency, decimals)
            == ItemLines(items[..i], lang, currency, decimals) + [ItemLine(items[i], lang, currency, decimals)]
    ensures PricedTotal(items[..i + 1]) == PricedTotal(items[..i]) + LineValue(items[i])
  {
    assert items[..i + 1][..i] == items[..i];
  }

  /** The pushes after the item loop. */
  method PushTrailer(lines: seq<string>, total: int, opts: WhatsAppOptions, orderNumber: string)
    returns (r: seq<string>)
    ensures r == lines + Trailer(total, opts, orderNumber)
  {
    var trailer: seq<string> := [];
    if total > 0 {
      trailer := trailer + [""];
      trailer := trailer + [TotalLine(total, Language(opts), Currency(opts), Decimals(opts))];
    }
    assert trailer == TotalPart(total, Language(opts), Currency(opts), Decimals(opts));
    trailer := trailer + [""];
    ghost var upToBlank := trailer;
    if opts.branchName != "" {
      trailer := trailer + [BranchLine(opts.branchName, Language(opts))];
    }
    assert trailer == upToBlank + BranchPart(opts.branchName, Language(opts));
    ghost var upToBranch := trailer;
    if opts.customerLocation != "" {
      trailer := trailer + [LocationLine(opts.customerLocation, Language(opts))];
    }
    assert trailer == upToBranch + LocationPart(opts.customerLocation, Language(opts));
    trailer := trailer + [OrderNumberLine(orderNumber, Language(opts))];
    r := lines + trailer;
  }

  /** The item loop: one line per item, in order, and the running total. */
  method PushItems(items: seq<OrderItem>, language: Lang, currency: string, decimals: nat)
    returns (lines: seq<string>, total: int)
    ensures lines == ItemLines(items, language, currency, decimals)
    ensures total == PricedTotal(items)
  {
    lines, total := [], 0;
    var i := 0;
    while i < |items|
      invariant 0 <= i <= |items|
      invariant lines == ItemLines(items[..i], language, currency, decimals)
      invariant total == PricedTotal(items[..i])
    {
      var it := items[i];
      lines := lines + [ItemLine(it, language, currency, decimals)];
      total := total + LineValue(it);
      ItemStep(items, i, language, currency, decimals);
      i := i + 1;
    }
    assert items[..i] == items;
  }

  /** `generateWhatsAppMessage`: the header, the item loop with its running
      total, the conditional lines, then the join and the encoding. */
  method GenerateWhatsAppMessage(items: seq<OrderItem>, opts: WhatsAppOptions, orderNumber: string)
    returns (encoded: string)
    requires SupportedDecimals(opts)
    ensures encoded == EncodeURIComponent(JoinLines(MessageLines(items, opts, orderNumber)))
  {
    var language := Language(opts);
    var lines: seq<string> := [];
    if language == Ar {
      lines := lines + ["طلب جديد"];
    } else {
      lines := lines + ["New Order"];
    }
    lines := lines + [""];
    assert lines == [Header(language), ""];
    var itemLines, total := PushItems(items, language, Currency(opts), Decimals(opts));
    lines := lines + itemLines;
    lines := PushTrailer(lines, total, opts, orderNumber);
    encoded := EncodeURIComponent(JoinLines(lines));
  }

  /** The line structure: header, blank, then the item lines in input order
      (line k renders item k, by ItemLinesAt), then the trailer. */
  lemma MessageStructure(items: seq<OrderItem>, opts: WhatsAppOptions, orderNumber: string)
    ensures var lines := MessageLines(items, opts, orderNumber);
            var n, trailer := |items|, Trailer(PricedTotal(items), opts, orderNumber);
            && |lines| == 2 + n + |trailer|
            && lines[0] == Header(Language(opts)) && lines[1] == ""
            && lines[2..2 + n] == ItemLines(items, Language(opts), Currency(opts), Decimals(opts))
            && lines[2 + n..] == trailer
  {
    var head := [Header(Language(opts)), ""];
    var body := ItemLines(items, Language(opts), Currency(opts), Decimals(opts));
    var trailer := Trailer(PricedTotal(items), opts, orderNumber);
    var lines := head + body + trailer;
    assert MessageLines(items, opts, orderNumber) == lines;
    assert lines[2..2 + |items|] == body;
    assert lines[2 + |items|..] == trailer;
  }

  /** The trailer holds the blank and total lines exactly when the total is
      positive, then a blank, the branch and location lines exactly when they
      are given, and ends with the order number. */
  lemma TrailerStructure(total: int, opts: WhatsAppOptions, orderNumber: string)
    ensures var tr, lang := Trailer(total, opts, orderNumber), Language(opts);
            var t := if total > 0 then 2 else 0;
            var b := if opts.branchName != "" then 1 else 0;
            var c := if opts.customerLocation != "" then 1 else 0;
            && |tr| == t + 2 + b + c
            && (total > 0 ==> tr[0] == "" && tr[1] == TotalLine(total, lang, Currency(opts), Decimals(opts)))
            && tr[t] == ""
            && (b == 1 ==> tr[t + 1] == BranchLine(opts.branchName, lang))
            && (c == 1 ==> tr[t + 1 + b] == LocationLine(opts.customerLocation, lang))
            && tr[|tr| - 1] == OrderNumberLine(orderNumber, lang)
  {
  }

  /** Language and the other options default to Arabic, BHD and three decimals. */
  lemma Defaults(opts: WhatsAppOptions)
    requires opts.language.None? && opts.currency == "" && opts.decimalPlaces.None?
    ensures Header(Language(opts)) == "طلب جديد"
    ensures Currency(opts) == "BHD" && Decimals(opts) == 3
  {
  }

  lemma {:induction false} PricedTotalAppend(s: seq<OrderItem>, t: seq<OrderItem>)
    ensures PricedTotal(s + t) == PricedTotal(s) + PricedTotal(t)
    decreases |t|
  {
    if t == [] {
      assert s + t == s;
    } else {
      assert (s + t)[..|s + t| - 1] == s + t[..|t| - 1];
      PricedTotalAppend(s, t[..|t| - 1]);
    }
  }

  /** How the cart's lines are handed to the composer. */
  function FromCartItem(x: CartStore.CartItem): OrderItem {
    OrderItem(
      Text(x.name),
      Some(x.quantity),
      if x.sizeLabel.Some? then x.sizeLabel.value else "",
      x.note,
      x.includedInTotal,
      Some(x.price),
      if x.priceLabel.Some? then x.priceLabel.value else "")
  }

  function FromCart(s: seq<CartStore.CartItem>): (r: seq<OrderItem>)
    ensures |r| == |s|
    ensures forall i :: 0 <= i < |s| ==> r[i] == FromCartItem(s[i])
  {
    if s == [] then [] else [FromCartItem(s[0])] + FromCart(s[1..])
  }

  /** The total in the message is the cart's own total price. */
  lemma {:induction false} TotalMatchesCart(s: seq<CartStore.CartItem>)
    ensures PricedTotal(FromCart(s)) == CartStore.TotalPrice(s)
  {
    if s != [] {
      TotalMatchesCart(s[1..]);
      assert FromCart(s) == [FromCartItem(s[0])] + FromCart(s[1..]);
      PricedTotalAppend([FromCartItem(s[0])], FromCart(s[1..]));
      assert [FromCartItem(s[0])][..0] == [];
    }
  }

  // ---------------------------------------------------------------------
  // Order number

  /** `Date.now().toString().slice(-6)`: the last six digits of the timestamp. */
  function TimestampTail(ts: nat): (r: string)
    ensures |r| <= 6
    ensures forall i :: 0 <= i < |r| ==> IsDigit(r[i])
    ensures DigitsValue(r) == ts % 1000000
    ensures ts >= 100000 ==> |r| == 6
  {
    var s := DecimalString(ts);
    TailFacts(ts);
    if |s| <= 6 then s else s[|s| - 6..]
  }

  lemma TailFacts(ts: nat)
    ensures var s := DecimalString(ts);
            && (|s| <= 6 ==> ts < 1000000)
            && (|s| > 6 ==> DigitsValue(s[|s| - 6..]) == ts % 1000000)
            && (ts >= 100000 ==> |s| >= 6)
  {
    var s := DecimalString(ts);
    assert Pow10(6) == 1000000 && Pow10(5) == 100000;
    DigitsBelow(s);
    if |s| <= 6 {
      Pow10Monotone(|s|, 6);
    }
    if |s| <= 5 {
      Pow10Monotone(|s|, 5);
    }
    if |s| > 6 {
      LastDigitsValue(s, 6);
    }
  }

  lemma {:induction false} Pow10Monotone(i: nat, j: nat)
    requires i <= j
    ensures Pow10(i) <= Pow10(j)
    decreases j
  {
    if i < j {
      Pow10Monotone(i, j - 1);
    }
  }

  /** `Math.floor(Math.random() * 9000) + 1000` for a draw `u` in [0, 1). */
  function RandomSuffix(u: real): (n: int)
    requires 0.0 <= u < 1.0
    ensures 1000 <= n <= 9999
  {
    (u * 9000.0).Floor + 1000
  }

  lemma FourDigits(n: nat)
    requires 1000 <= n <= 9999
    ensures |DecimalString(n)| == 4
  {
    var a := n / 10;
    var b := a / 10;
    var c := b / 10;
    assert 10 <= b && 1 <= c < 10;
    assert |DecimalString(b)| == |DecimalString(c)| + 1;
    assert |DecimalString(a)| == |DecimalString(b)| + 1;
  }

  /** `ORD-<last six timestamp digits>-<four-digit random number>`. */
  function OrderNumber(ts: nat, u: real): (r: string)
    requires 0.0 <= u < 1.0
    ensures 10 <= |r| <= 15
    ensures r[..4] == "ORD-"
    ensures r[|r| - 5] == '-'
    ensures forall i :: 4 <= i < |r| - 5 ==> IsDigit(r[i])
    ensures forall i :: |r| - 4 <= i < |r| ==> IsDigit(r[i])
    ensures DigitsValue(r[|r| - 4..]) == RandomSuffix(u)
    ensures DigitsValue(r[4..|r| - 5]) == ts % 1000000
  {
    var tail := TimestampTail(ts);
    var n := RandomSuffix(u);
    var digits := DecimalString(n);
    FourDigits(n);
    var r := "ORD-" + tail + "-" + digits;
    assert r[|r| - 4..] == digits;
    assert r[4..|r| - 5] == tail;
    r
  }
}

=== FILE: percent_encoding.dfy ===
/** JavaScript's `encodeURIComponent`: every character outside its unreserved
    set becomes the `%XX` escapes of its UTF-8 bytes, with upper-case hex
    digits, as in section 2.1 of RFC 3986. */
module PercentEncoding {

  /** The characters `encodeURIComponent` leaves as they are. */
  predicate Unreserved(c: char) {
    ('A' <= c <= 'Z') || ('a' <= c <= 'z') || ('0' <= c <= '9') ||
    c == '-' || c == '_' || c == '.' || c == '!' || c == '~' || c == '*' ||
    c == '\'' || c == '(' || c == ')'
  }

  /** The UTF-8 encoding of one Unicode scalar value. */
  function Utf8(c: char): (r: seq<nat>)
    ensures 1 <= |r| <= 4
    ensures forall i :: 0 <= i < |r| ==> r[i] < 256
    ensures |r| == 1 <==> c as int < 0x80
  {
    var cp := c as int;
    if cp < 0x80 then [cp]
    else if cp < 0x800 then [0xC0 + cp / 64, 0x80 + cp % 64]
    else if cp < 0x10000 then [0xE0 + cp / 4096, 0x80 + (cp / 64) % 64, 0x80 + cp % 64]
    else [0xF0 + cp / 262144, 0x80 + (cp / 4096) % 64, 0x80 + (cp / 64) % 64, 0x80 + cp % 64]
  }

  function HexDigit(d: nat): (c: char)
    requires d < 16
    ensures Unreserved(c)
  {
    "0123456789ABCDEF"[d]
  }

  /** `%XX` for each byte, in order. */
  function EscapeBytes(bytes: seq<nat>): (r: string)
    requires forall i :: 0 <= i < |bytes| ==> bytes[i] < 256
    ensures |r| == 3 * |bytes|
    ensures forall i :: 0 <= i < |r| ==> r[i] == '%' || Unreserved(r[i])
    ensures bytes != [] ==> r[0] == '%'
  {
    if bytes == [] then []
    else ['%', HexDigit(bytes[0] / 16), HexDigit(bytes[0] % 16)] + EscapeBytes(bytes[1..])
  }

  function EncodeChar(c: char): (r: string)
    ensures Unreserved(c) ==> r == [c]
    ensures !Unreserved(c) ==> 3 <= |r| <= 12 && r[0] == '%'
  {
    if Unreserved(c) then [c] else EscapeBytes(Utf8(c))
  }

  /** `encodeURIComponent(s)`. The result uses only unreserved characters and
      `%`, so it can stand as one query parameter value; text that is already
      unreserved comes back unchanged. */
  function EncodeURIComponent(s: string): (r: string)
    ensures forall i :: 0 <= i < |r| ==> r[i] == '%' || Unreserved(r[i])
    ensures (forall i :: 0 <= i < |s| ==> Unreserved(s[i])) ==> r == s
    ensures |r| >= |s|
  {
    if s == [] then [] else EncodeChar(s[0]) + EncodeURIComponent(s[1..])
  }

  /** A line break inside the message travels as `%0A`. */
  lemma NewlineEscape()
    ensures EncodeURIComponent("\n") == "%0A"
  {
    assert EncodeChar('\n') == EscapeBytes([10]);
    assert EscapeBytes([10]) == ['%', '0', 'A'] + EscapeBytes([]);
  }
}

=== FILE: pwa_cart.dfy ===
/** The cart of the standalone menu page (assets/menu/script.js): an array of
    `{id, qty}` entries mutated in place, a dish index rebuilt from the menu,
    quantities bounded to 1..99, and a checkout that validates the customer's
    name and address before opening WhatsApp. Prices are integer thousandths. */
module PwaCart {
  import opened Common
  import opened PercentEncoding

  const MinQty := 1
  const MaxQty := 99

  /** `Math.min(max, Math.max(min, n))`. */
  function Clamp(n: int, lo: int, hi: int): (r: int)
    ensures lo <= hi ==> lo <= r <= hi
    ensures lo <= n <= hi ==> r == n
    ensures lo <= hi && n < lo ==> r == lo
    ensures n > hi ==> r == hi
  {
    if n < lo then (if lo < hi then lo else hi)
    else if n < hi then n else hi
  }

  /** A dish of the menu. `price` is None when it is not a finite number; an
      empty `id` stands for a missing or empty one. */
  datatype Dish = Dish(id: string, price: Option<int>)

  /** Orderable: a finite price above zero. */
  predicate Orderable(d: Dish) {
    d.price.Some? && d.price.value > 0
  }

  datatype Entry = Entry(id: string, qty: int)

  // ---------------------------------------------------------------------
  // Dish index

  /** The index after `Map.set` for every present dish with a non-empty id,
      in order (a later dish replaces an earlier one with the same id). */
  function IndexOf(dishes: seq<Option<Dish>>): (r: map<string, Dish>)
    ensures forall key :: key in r ==> key != "" && r[key].id == key
  {
    if dishes == [] then map[]
    else
      var rest := IndexOf(dishes[..|dishes| - 1]);
      var d := dishes[|dishes| - 1];
      if d.None? || d.value.id == "" then rest else rest[d.value.id := d.value]
  }

  predicate Indexable(d: Option<Dish>) {
    d.Some? && d.value.id != ""
  }

  /** Dish j carries the key and no later present dish does. */
  predicate LastWith(dishes: seq<Option<Dish>>, j: int, key: string) {
    && 0 <= j < |dishes| && Indexable(dishes[j]) && dishes[j].value.id == key
    && forall i :: j < i < |dishes| && Indexable(dishes[i]) ==> dishes[i].value.id != key
  }

  /** An id is indexed exactly when some present dish carries it. */
  lemma {:induction false} IndexOfKeys(dishes: seq<Option<Dish>>, key: string)
    ensures key in IndexOf(dishes) <==>
      exists i :: 0 <= i < |dishes| && Indexable(dishes[i]) && dishes[i].value.id == key
  {
    if dishes != [] {
      var init := dishes[..|dishes| - 1];
      IndexOfKeys(init, key);
      if exists i :: 0 <= i < |init| && Indexable(init[i]) && init[i].value.id == key {
        var i :| 0 <= i < |init| && Indexable(init[i]) && init[i].value.id == key;
        assert dishes[i] == init[i];
      }
      if exists i :: 0 <= i < |dishes| && Indexable(dishes[i]) && dishes[i].value.id == key {
        var i :| 0 <= i < |dishes| && Indexable(dishes[i]) && dishes[i].value.id == key;
        if i < |init| {
          assert init[i] == dishes[i];
        }
      }
    }
  }

  /** The last dish carrying an id is the one the index keeps. */
  lemma {:induction false} IndexOfLastWins(dishes: seq<Option<Dish>>, j: int, key: string)
    requires LastWith(dishes, j, key)
    ensures key in IndexOf(dishes) && IndexOf(dishes)[key] == dishes[j].value
  {
    var init := dishes[..|dishes| - 1];
    if j < |init| {
      assert LastWith(init, j, key) by {
        forall i | j < i < |init| && Indexable(init[i])
          ensures init[i].value.id != key
        {
          assert init[i] == dishes[i];
        }
      }
      IndexOfLastWins(init, j, key);
    }
  }

  // ---------------------------------------------------------------------
  // Stored cart

  /** One element of the stored array: `id` when it is a string, `qty` and
      `quantity` when they are finite numbers. */
  datatype RawEntry = RawEntry(id: Option<string>, qty: Option<int>, quantity: Option<int>)

  /** What reading a storage key gives: nothing (or an empty string), text
      that does not parse, a parsed value that is not an array, or an array. */
  datatype Stored = Missing | Unparsable | NotAnArray | Entries(raw: seq<RawEntry>)

  /** `qty`, falling back to `quantity` when `qty` is not finite. */
  function RawQty(x: RawEntry): Option<int> {
    if x.qty.Some? then x.qty else x.quantity
  }

  /** The filter of `loadCart`: a string id and a finite quantity above zero. */
  predicate Kept(x: RawEntry) {
    x.id.Some? && RawQty(x).Some? && RawQty(x).value > 0
  }

  /** The map/filter/map chain of `loadCart`. */
  function Normalize(raw: seq<RawEntry>): (r: seq<Entry>)
    ensures |r| <= |raw|
    ensures forall i :: 0 <= i < |r| ==> MinQty <= r[i].qty <= MaxQty
    ensures (forall i :: 0 <= i < |raw| ==> Kept(raw[i])) ==> |r| == |raw|
  {
    if raw == [] then []
    else
      var x := raw[0];
      var rest := Normalize(raw[1..]);
      if Kept(x) then [Entry(x.id.value, Clamp(RawQty(x).value, MinQty, MaxQty))] + rest else rest
  }

  /** An entry as `saveCart` writes it. */
  function ToRaw(c: seq<Entry>): (r: seq<RawEntry>)
    ensures |r| == |c|
  {
    if c == [] then [] else [RawEntry(Some(c[0].id), Some(c[0].qty), None)] + ToRaw(c[1..])
  }

  predicate InRange(c: seq<Entry>) {
    forall i :: 0 <= i < |c| ==> MinQty <= c[i].qty <= MaxQty
  }

  /** A cart whose quantities are in range survives saving and loading. */
  lemma {:induction false} LoadAfterSave(c: seq<Entry>)
    requires InRange(c)
    ensures Normalize(ToRaw(c)) == c
  {
    if c != [] {
      LoadAfterSave(c[1..]);
      assert ToRaw(c)[1..] == ToRaw(c[1..]);
    }
  }

  /** Normalizing keeps the kept entries in order: it distributes over
      concatenation. */
  lemma {:induction false} NormalizeAppend(a: seq<RawEntry>, b: seq<RawEntry>)
    ensures Normalize(a + b) == Normalize(a) + Normalize(b)
  {
    if a != [] {
      var ab, tail := a + b, a[1..];
      assert ab[0] == a[0] && ab[1..] == tail + b;
      NormalizeAppend(tail, b);
      var front, back := Normalize(tail), Normalize(b);
      if Kept(a[0]) {
        var e := [Entry(a[0].id.value, Clamp(RawQty(a[0]).value, MinQty, MaxQty))];
        assert Normalize(ab) == e + (front + back);
        assert Normalize(a) == e + front;
        assert e + (front + back) == (e + front) + back;
      }
    } else {
      assert a + b == b;
    }
  }

  /** What loading makes of one stored entry: an entry with a string id and
      a positive quantity (`qty`, else `quantity`) is kept with that id and
      the quantity clamped to 1..99; any other entry is dropped. With
      `NormalizeAppend` this fixes the result for every stored list. */
  lemma NormalizeOne(x: RawEntry)
    ensures Normalize([x]) == if Kept(x) then [Entry(x.id.value, Clamp(RawQty(x).value, MinQty, MaxQty))] else []
  {
    assert [x][1..] == [];
  }

  /** The loaded entries are exactly the clamped forms of the kept stored
      entries. */
  lemma {:induction false} NormalizeMembers(raw: seq<RawEntry>)
    ensures forall e :: e in Normalize(raw) <==>
      exists x :: x in raw && Kept(x) && e == Entry(x.id.value, Clamp(RawQty(x).value, MinQty, MaxQty))
  {
    if raw != [] {
      NormalizeMembers(raw[1..]);
      assert forall x :: x in raw <==> x == raw[0] || x in raw[1..];
    }
  }

  /** Loading a loaded cart again changes nothing. */
  lemma NormalizeIdempotent(raw: seq<RawEntry>)
    ensures Normalize(ToRaw(Normalize(raw))) == Normalize(raw)
  {
    LoadAfterSave(Normalize(raw));
  }

  // ---------------------------------------------------------------------
  // Cart transformations

  predicate HasEntry(c: seq<Entry>, id: string) {
    exists i :: 0 <= i < |c| && c[i].id == id
  }

  /** `cart.find(x => x.id === id)`, as a position. */
  function FirstIndex(c: seq<Entry>, id: string): (r: Option<nat>)
    ensures r.None? <==> !HasEntry(c, id)
    ensures r.Some? ==> r.value < |c| && c[r.value].id == id
    ensures r.Some? ==> forall j :: 0 <= j < r.value ==> c[j].id != id
  {
    if c == [] then None
    else if c[0].id == id then Some(0)
    else
      var rest := FirstIndex(c[1..], id);
      if rest.None? then
        assert forall i :: 1 <= i < |c| ==> c[i] == c[1..][i - 1];
        None
      else
        assert c[rest.value + 1] == c[1..][rest.value];
        Some(rest.value + 1)
  }

  predicate UniqueIds(c: seq<Entry>) {
    forall i, j :: 0 <= i < j < |c| ==> c[i].id != c[j].id
  }

  /** `addToCart` on an orderable dish: the first entry with the id gains one
      unit up to 99, or a new entry of one is appended. */
  function AddEntry(c: seq<Entry>, id: string): (r: seq<Entry>)
    ensures HasEntry(r, id)
    ensures HasEntry(c, id) ==> |r| == |c|
    ensures !HasEntry(c, id) ==> r == c + [Entry(id, 1)]
  {
    var k := FirstIndex(c, id);
    if k.Some? then
      var r := c[k.value := Entry(id, Clamp(c[k.value].qty + 1, MinQty, MaxQty))];
      assert r[k.value].id == id;
      r
    else
      assert (c + [Entry(id, 1)])[|c|].id == id;
      c + [Entry(id, 1)]
  }

  /** `updateCartQty`: the first entry with the id moves by `delta`, kept in
      1..99; nothing happens for an unknown id. */
  function ShiftEntry(c: seq<Entry>, id: string, delta: int): (r: seq<Entry>)
    ensures |r| == |c|
    ensures forall i :: 0 <= i < |c| ==> r[i].id == c[i].id
    ensures !HasEntry(c, id) ==> r == c
  {
    var k := FirstIndex(c, id);
    if k.Some? then c[k.value := Entry(id, Clamp(c[k.value].qty + delta, MinQty, MaxQty))] else c
  }

  /** On a dish already in the cart, adding touches only its first entry,
      which gains one unit unless it is at 99 already. */
  lemma AddEntryQuantities(c: seq<Entry>, id: string)
    requires HasEntry(c, id)
    ensures var r, k := AddEntry(c, id), FirstIndex(c, id).value;
      && (forall i :: 0 <= i < |c| && i != k ==> r[i] == c[i])
      && r[k].id == id && MinQty <= r[k].qty <= MaxQty
      && (MinQty <= c[k].qty + 1 <= MaxQty ==> r[k].qty == c[k].qty + 1)
      && (c[k].qty >= MaxQty ==> r[k].qty == MaxQty)
  {
  }

  /** A quantity change touches only the first entry with the id, and its new
      quantity is the old one moved by `delta` whenever that stays in 1..99. */
  lemma ShiftEntryQuantities(c: seq<Entry>, id: string, delta: int)
    requires HasEntry(c, id)
    ensures var r, k := ShiftEntry(c, id, delta), FirstIndex(c, id).value;
      && (forall i :: 0 <= i < |c| && i != k ==> r[i] == c[i])
      && MinQty <= r[k].qty <= MaxQty
      && (MinQty <= c[k].qty + delta <= MaxQty ==> r[k].qty == c[k].qty + delta)
  {
  }

  /** `cart.filter(x => x.id !== id)`. */
  function DropEntries(c: seq<Entry>, id: string): (r: seq<Entry>)
    ensures |r| <= |c|
  {
    if c == [] then []
    else if c[0].id == id then DropEntries(c[1..], id)
    else [c[0]] + DropEntries(c[1..], id)
  }

  /** `filter` keeps exactly the entries with another id. */
  lemma {:induction false} DropEntriesMembers(c: seq<Entry>, id: string)
    ensures !HasEntry(DropEntries(c, id), id)
    ensures forall x :: x in DropEntries(c, id) <==> x in c && x.id != id
  {
    if c != [] {
      DropEntriesMembers(c[1..], id);
      assert forall x :: x in c <==> x == c[0] || x in c[1..];
    }
  }

  lemma {:induction false} DropEntriesAppend(a: seq<Entry>, b: seq<Entry>, id: string)
    ensures DropEntries(a + b, id) == DropEntries(a, id) + DropEntries(b, id)
  {
    if a != [] {
      assert (a + b)[1..] == a[1..] + b;
      DropEntriesAppend(a[1..], b, id);
    } else {
      assert a + b == b;
    }
  }

  lemma {:induction false} DropAbsent(c: seq<Entry>, id: string)
    requires !HasEntry(c, id)
    ensures DropEntries(c, id) == c
  {
    if c != [] {
      assert !HasEntry(c[1..], id) by {
        forall i | 0 <= i < |c[1..]|
          ensures c[1..][i].id != id
        {
          assert c[1..][i] == c[i + 1];
        }
      }
      DropAbsent(c[1..], id);
    }
  }

  /** Adding keeps ids unique and quantities in range. */
  lemma AddEntryKeepsInvariant(c: seq<Entry>, id: string)
    requires UniqueIds(c) && InRange(c)
    ensures UniqueIds(AddEntry(c, id)) && InRange(AddEntry(c, id))
  {
    var r := AddEntry(c, id);
    if !HasEntry(c, id) {
      assert forall i :: 0 <= i < |c| ==> r[i] == c[i];
    }
  }

  lemma ShiftEntryKeepsInvariant(c: seq<Entry>, id: string, delta: int)
    requires UniqueIds(c) && InRange(c)
    ensures UniqueIds(ShiftEntry(c, id, delta)) && InRange(ShiftEntry(c, id, delta))
  {
  }

  lemma {:induction false} DropEntriesKeepsInvariant(c: seq<Entry>, id: string)
    requires UniqueIds(c) && InRange(c)
    ensures UniqueIds(DropEntries(c, id)) && InRange(DropEntries(c, id))
  {
    DropEntriesUnique(c, id);
    DropEntriesInRange(c, id);
  }

  lemma {:induction false} DropEntriesUnique(c: seq<Entry>, id: string)
    requires UniqueIds(c)
    ensures UniqueIds(DropEntries(c, id))
  {
    if c != [] {
      UniqueTail(c);
      DropEntriesUnique(c[1..], id);
      if c[0].id != id {
        DropEntriesMembers(c[1..], id);
        ConsUnique(c[0], DropEntries(c[1..], id));
      }
    }
  }

  lemma UniqueTail(c: seq<Entry>)
    requires UniqueIds(c) && c != []
    ensures UniqueIds(c[1..])
    ensures forall y :: y in c[1..] ==> y.id != c[0].id
  {
    var tail := c[1..];
    assert forall i :: 0 <= i < |tail| ==> tail[i] == c[i + 1];
  }

  lemma ConsUnique(x: Entry, rest: seq<Entry>)
    requires UniqueIds(rest)
    requires forall y :: y in rest ==> y.id != x.id
    ensures UniqueIds([x] + rest)
  {
    var r := [x] + rest;
    forall i, j | 0 <= i < j < |r|
      ensures r[i].id != r[j].id
    {
      assert r[j] == rest[j - 1];
      if i > 0 {
        assert r[i] == rest[i - 1];
      }
    }
  }

  lemma DropEntriesInRange(c: seq<Entry>, id: string)
    requires InRange(c)
    ensures InRange(DropEntries(c, id))
  {
    var r := DropEntries(c, id);
    DropEntriesMembers(c, id);
    forall i | 0 <= i < |r|
      ensures MinQty <= r[i].qty <= MaxQty
    {
      assert r[i] in c;
    }
  }

  // ---------------------------------------------------------------------
  // Count and total

  /** `cartCount`: the sum of the quantities. */
  function Count(c: seq<Entry>): (r: int)
    ensures InRange(c) ==> |c| <= r <= MaxQty * |c|
  {
    if c == [] then 0 else Count(c[..|c| - 1]) + c[|c| - 1].qty
  }

  function LineTotal(price: int, qty: int): int {
    price * qty
  }

  /** What one entry adds to `cartTotal`: nothing when its dish is not indexed
      or has no finite price. */
  function EntryTotal(e: Entry, index: map<string, Dish>): int {
    if e.id in index && index[e.id].price.Some? then LineTotal(index[e.id].price.value, e.qty) else 0
  }

  function Total(c: seq<Entry>, index: map<string, Dish>): (r: int)
    ensures (forall i :: 0 <= i < |c| ==> c[i].id !in index) ==> r == 0
  {
    if c == [] then 0 else Total(c[..|c| - 1], index) + EntryTotal(c[|c| - 1], index)
  }

  /** Replacing one entry changes the sums by the difference of that entry. */
  lemma {:induction false} SumsOfUpdate(c: seq<Entry>, k: nat, e: Entry, index: map<string, Dish>)
    requires k < |c|
    ensures Count(c[k := e]) == Count(c) - c[k].qty + e.qty
    ensures Total(c[k := e], index) == Total(c, index) - EntryTotal(c[k], index) + EntryTotal(e, index)
  {
    var n := |c| - 1;
    if k < n {
      assert c[k := e][..n] == c[..n][k := e];
      SumsOfUpdate(c[..n], k, e, index);
    } else {
      assert c[k := e][..n] == c[..n];
    }
  }

  lemma OneMoreUnit(price: int, qty: int)
    ensures LineTotal(price, qty + 1) == LineTotal(price, qty) + price
  {
  }

  /** Adding an orderable dish raises the count by one and the total by its
      price, unless its entry is already at 99. */
  lemma AddEntrySums(c: seq<Entry>, d: Dish, index: map<string, Dish>)
    requires InRange(c) && Orderable(d) && d.id in index && index[d.id] == d
    ensures var k := FirstIndex(c, d.id);
      k.Some? && c[k.value].qty == MaxQty ==> AddEntry(c, d.id) == c
    ensures var k := FirstIndex(c, d.id);
      k.None? || c[k.value].qty < MaxQty ==>
        Count(AddEntry(c, d.id)) == Count(c) + 1 &&
        Total(AddEntry(c, d.id), index) == Total(c, index) + d.price.value
  {
    var k := FirstIndex(c, d.id);
    if k.Some? {
      MergeSums(c, k.value, d, index);
    } else {
      AppendSums(c, d, index);
    }
  }

  lemma MergeSums(c: seq<Entry>, k: nat, d: Dish, index: map<string, Dish>)
    requires InRange(c) && Orderable(d) && d.id in index && index[d.id] == d
    requires k < |c| && c[k].id == d.id
    ensures var r := c[k := Entry(d.id, Clamp(c[k].qty + 1, MinQty, MaxQty))];
      (c[k].qty == MaxQty ==> r == c) &&
      (c[k].qty < MaxQty ==> Count(r) == Count(c) + 1 && Total(r, index) == Total(c, index) + d.price.value)
  {
    var e := Entry(d.id, Clamp(c[k].qty + 1, MinQty, MaxQty));
    SumsOfUpdate(c, k, e, index);
    OneMoreUnit(d.price.value, c[k].qty);
    if c[k].qty == MaxQty {
      assert c[k] == e;
    }
  }

  lemma AppendSums(c: seq<Entry>, d: Dish, index: map<string, Dish>)
    requires Orderable(d) && d.id in index && index[d.id] == d
    ensures Count(c + [Entry(d.id, 1)]) == Count(c) + 1
    ensures Total(c + [Entry(d.id, 1)], index) == Total(c, index) + d.price.value
  {
    var r := c + [Entry(d.id, 1)];
    assert r[..|r| - 1] == c;
    assert LineTotal(d.price.value, 1) == d.price.value;
  }

  // ---------------------------------------------------------------------
  // Checkout

  /** `length` counts UTF-16 code units: two for a character outside the
      Basic Multilingual Plane. */
  function Utf16Length(s: string): (n: nat)
    ensures |s| <= n <= 2 * |s|
  {
    if s == [] then 0 else (if s[0] as int >= 0x10000 then 2 else 1) + Utf16Length(s[1..])
  }

  datatype Checkout = EmptyCart | NameMissing | AddressMissing | Opened(url: string)

  /** The link `openWhatsApp` opens: the branch's number when there is one. */
  function WhatsAppUrl(number: string, message: string): (url: string)
    ensures var tail := "?text=" + EncodeURIComponent(message);
      (number != "" ==> url == "https://wa.me/" + number + tail) &&
      (number == "" ==> url == "https://wa.me/" + tail)
  {
    if number != "" then "https://wa.me/" + number + "?text=" + EncodeURIComponent(message)
    else "https://wa.me/?text=" + EncodeURIComponent(message)
  }

  /** The encoded message cannot end the `text` parameter early: it holds no
      `&`, `#`, `=` or `?`. */
  lemma MessageStaysInParameter(message: string)
    ensures forall i :: 0 <= i < |EncodeURIComponent(message)| ==>
      EncodeURIComponent(message)[i] !in {'&', '#', '=', '?', ' '}
  {
  }

  /** How the link parses: the base address with the number, then `?text=`
      and the encoded message to the end. No `?` follows that one, so the
      last `?text=` starts the message; when the number holds no `?` it is
      the only `?` of the link. With `MessageStaysInParameter`, the whole
      message is the value of the `text` parameter. */
  lemma WhatsAppUrlParses(number: string, message: string)
    ensures var url, enc := WhatsAppUrl(number, message), EncodeURIComponent(message);
      var p := |url| - |enc| - 6;
      && 0 <= p
      && url[..p] == "https://wa.me/" + number
      && url[p..p + 6] == "?text="
      && url[p + 6..] == enc
      && (forall i :: p < i < |url| ==> url[i] != '?')
      && ((forall k :: 0 <= k < |number| ==> number[k] != '?') ==>
            forall i :: 0 <= i < |url| && url[i] == '?' ==> i == p)
  {
    var enc := EncodeURIComponent(message);
    var head := "https://wa.me/" + number;
    if number == "" {
      assert head == "https://wa.me/";
    }
    assert WhatsAppUrl(number, message) == head + "?text=" + enc;
    EncodedHasNoQuestionMark(message);
    QueryParts(head, enc);
    if forall k :: 0 <= k < |number| ==> number[k] != '?' {
      BaseHasNoQuestionMark(number);
    }
  }

  lemma EncodedHasNoQuestionMark(message: string)
    ensures forall i :: 0 <= i < |EncodeURIComponent(message)| ==> EncodeURIComponent(message)[i] != '?'
  {
  }

  lemma BaseHasNoQuestionMark(number: string)
    requires forall k :: 0 <= k < |number| ==> number[k] != '?'
    ensures forall i :: 0 <= i < |"https://wa.me/" + number| ==> ("https://wa.me/" + number)[i] != '?'
  {
    var head := "https://wa.me/" + number;
    assert forall i :: 14 <= i < |head| ==> head[i] == number[i - 14];
  }

  /** `head + "?text=" + tail` split back into its three parts, when the tail
      holds no `?`. */
  lemma QueryParts(head: string, tail: string)
    requires forall i :: 0 <= i < |tail| ==> tail[i] != '?'
    ensures var url, p := head + "?text=" + tail, |head|;
      && url[..p] == head && url[p..p + 6] == "?text=" && url[p + 6..] == tail
      && (forall i :: p < i < |url| ==> url[i] != '?')
      && ((forall i :: 0 <= i < |head| ==> head[i] != '?') ==>
            forall i :: 0 <= i < |url| && url[i] == '?' ==> i == p)
  {
    var url, p := head + "?text=" + tail, |head|;
    assert forall i :: p + 6 <= i < |url| ==> url[i] == tail[i - p - 6];
    assert forall i :: 0 <= i < p ==> url[i] == head[i];
  }

  /** The validation of `handleCartCheckout`. */
  function CheckoutOutcome(cart: seq<Entry>, name: string, address: string, number: string, message: string): (r: Checkout)
    ensures r.Opened? <==>
      cart != [] && Utf16Length(Trim(name)) >= 2 && Utf16Length(Trim(address)) >= 10
    ensures r.Opened? ==> r.url == WhatsAppUrl(number, message)
    ensures cart == [] ==> r == EmptyCart
  {
    if cart == [] then EmptyCart
    else if Trim(name) == [] || Utf16Length(Trim(name)) < 2 then NameMissing
    else if Trim(address) == [] || Utf16Length(Trim(address)) < 10 then AddressMissing
    else Opened(WhatsAppUrl(number, message))
  }

  /** A name or address made only of white space is refused. */
  lemma BlankInputRefused(cart: seq<Entry>, name: string, address: string, number: string, message: string)
    requires cart != []
    requires forall i :: 0 <= i < |name| ==> IsJsSpace(name[i])
    ensures CheckoutOutcome(cart, name, address, number, message) == NameMissing
  {
  }

  datatype AddOutcome = Ignored | InquirySent | Added

  /** The page state: the cart array, the dish index, the last stored cart and
      the links opened so far. */
  class CartPage {
    var cart: seq<Entry>
    var dishIndex: map<string, Dish>
    var stored: seq<Entry>
    var urlsOpened: seq<string>

    constructor()
      ensures cart == [] && dishIndex == map[] && stored == [] && urlsOpened == []
    {
      cart := [];
      dishIndex := map[];
      stored := [];
      urlsOpened := [];
    }

    /** `buildDishIndex`. */
    method BuildDishIndex(dishes: seq<Option<Dish>>)
      modifies this
      ensures dishIndex == IndexOf(dishes)
      ensures cart == old(cart) && stored == old(stored) && urlsOpened == old(urlsOpened)
    {
      dishIndex := map[];
      var i := 0;
      while i < |dishes|
        invariant 0 <= i <= |dishes|
        invariant dishIndex == IndexOf(dishes[..i])
        invariant cart == old(cart) && stored == old(stored) && urlsOpened == old(urlsOpened)
      {
        var d := dishes[i];
        assert dishes[..i + 1][..i] == dishes[..i];
        if d.Some? && d.value.id != "" {
          dishIndex := dishIndex[d.value.id := d.value];
        }
        i := i + 1;
      }
      assert dishes[..i] == dishes;
    }

    /** `saveCart`. */
    method SaveCart()
      modifies this
      ensures stored == cart
      ensures cart == old(cart) && dishIndex == old(dishIndex) && urlsOpened == old(urlsOpened)
    {
      stored := cart;
    }

    /** `loadCart`: the primary key, or the legacy key when the primary one
        holds nothing. Unparsable or non-array contents leave the cart as it is. */
    method LoadCart(primary: Stored, legacy: Stored)
      modifies this
      ensures var s := if primary.Missing? then legacy else primary;
        (s.Entries? ==> cart == Normalize(s.raw) && stored == cart) &&
        (!s.Entries? ==> cart == old(cart) && stored == old(stored))
      ensures dishIndex == old(dishIndex) && urlsOpened == old(urlsOpened)
    {
      var s := if primary.Missing? then legacy else primary;
      if !s.Entries? {
        return;
      }
      cart := Normalize(s.raw);
      SaveCart();
    }

    /** `cartTotal`. */
    method CartTotal() returns (total: int)
      ensures total == Total(cart, dishIndex)
    {
      total := 0;
      var i := 0;
      while i < |cart|
        invariant 0 <= i <= |cart|
        invariant total == Total(cart[..i], dishIndex)
      {
        var it := cart[i];
        assert cart[..i + 1][..i] == cart[..i];
        if it.id in dishIndex && dishIndex[it.id].price.Some? {
          total := total + dishIndex[it.id].price.value * it.qty;
        }
        i := i + 1;
      }
      assert cart[..i] == cart;
    }

    /** `cart.find(x => x.id === id)`. */
    method Find(id: string) returns (k: Option<nat>)
      ensures k == FirstIndex(cart, id)
    {
      var i := 0;
      while i < |cart|
        invariant 0 <= i <= |cart|
        invariant forall j :: 0 <= j < i ==> cart[j].id != id
      {
        if cart[i].id == id {
          return Some(i);
        }
        i := i + 1;
      }
      return None;
    }

    /** `addToCart`: nothing for an unknown dish; an inquiry message for a
        dish that cannot be ordered; otherwise one more unit. */
    method AddToCart(dishId: string, number: string, inquiry: string) returns (outcome: AddOutcome)
      modifies this
      ensures dishId !in dishIndex ==> outcome == Ignored && cart == old(cart) && urlsOpened == old(urlsOpened)
      ensures dishId in dishIndex && !Orderable(dishIndex[dishId]) ==>
        outcome == InquirySent && cart == old(cart) && urlsOpened == old(urlsOpened) + [WhatsAppUrl(number, inquiry)]
      ensures dishId in dishIndex && Orderable(dishIndex[dishId]) ==>
        outcome == Added && cart == AddEntry(old(cart), dishId) && stored == cart && urlsOpened == old(urlsOpened)
      ensures outcome != Added ==> stored == old(stored)
      ensures dishIndex == old(dishIndex)
    {
      if dishId !in dishIndex {
        return Ignored;
      }
      var dish := dishIndex[dishId];
      if !Orderable(dish) {
        urlsOpened := urlsOpened + [WhatsAppUrl(number, inquiry)];
        return InquirySent;
      }
      var existing := Find(dishId);
      if existing.Some? {
        var k := existing.value;
        cart := cart[k := Entry(dishId, Clamp(cart[k].qty + 1, MinQty, MaxQty))];
      } else {
        cart := cart + [Entry(dishId, 1)];
      }
      SaveCart();
      return Added;
    }

    /** `updateCartQty`. */
    method UpdateCartQty(dishId: string, delta: int)
      modifies this
      ensures cart == ShiftEntry(old(cart), dishId, delta)
      ensures HasEntry(old(cart), dishId) ==> stored == cart
      ensures !HasEntry(old(cart), dishId) ==> stored == old(stored)
      ensures dishIndex == old(dishIndex) && urlsOpened == old(urlsOpened)
    {
      var item := Find(dishId);
      if item.None? {
        return;
      }
      var k := item.value;
      cart := cart[k := Entry(dishId, Clamp(cart[k].qty + delta, MinQty, MaxQty))];
      SaveCart();
    }

    /** `removeFromCart`. */
    method RemoveFromCart(dishId: string)
      modifies this
      ensures cart == DropEntries(old(cart), dishId) && stored == cart
      ensures dishIndex == old(dishIndex) && urlsOpened == old(urlsOpened)
    {
      cart := DropEntries(cart, dishId);
      SaveCart();
    }

    /** `clearCart`. */
    method ClearCart()
      modifies this
      ensures cart == [] && stored == []
      ensures dishIndex == old(dishIndex) && urlsOpened == old(urlsOpened)
    {
      cart := [];
      SaveCart();
    }

    /** The minus button of the rendered entry at position k: remove at one
        unit or less, otherwise one unit fewer. */
    method MinusClick(k: nat)
      requires k < |cart|
      modifies this
      ensures old(cart[k].qty) <= 1 ==> cart == DropEntries(old(cart), old(cart[k].id))
      ensures old(cart[k].qty) > 1 ==> cart == ShiftEntry(old(cart), old(cart[k].id), -1)
      ensures stored == cart
      ensures dishIndex == old(dishIndex) && urlsOpened == old(urlsOpened)
    {
      var it := cart[k];
      if it.qty <= 1 {
        RemoveFromCart(it.id);
      } else {
        UpdateCartQty(it.id, -1);
      }
    }

    /** `handleCartCheckout` with the order text already built. */
    method HandleCartCheckout(name: string, address: string, number: string, message: string)
      returns (outcome: Checkout)
      modifies this
      ensures outcome == CheckoutOutcome(cart, name, address, number, message)
      ensures outcome.Opened? ==> urlsOpened == old(urlsOpened) + [outcome.url]
      ensures !outcome.Opened? ==> urlsOpened == old(urlsOpened)
      ensures cart == old(cart) && stored == old(stored) && dishIndex == old(dishIndex)
    {
      if |cart| == 0 {
        return EmptyCart;
      }
      var customerName := Trim(name);
      var customerAddress := Trim(address);
      if customerName == [] || Utf16Length(customerName) < 2 {
        return NameMissing;
      }
      if customerAddress == [] || Utf16Length(customerAddress) < 10 {
        return AddressMissing;
      }
      var url := WhatsAppUrl(number, message);
      urlsOpened := urlsOpened + [url];
      return Opened(url);
    }
  }
}

=== FILE: translations.dfy ===
/** The translation lookup of the earlier site version
    (NEW_PROJECT_REVIEW/website/utils/translations.ts): a constant dictionary
    per language, nested by key, and a walk along a key path. */
module Translations {
  import opened Common

  /** A dictionary node: a text, or named children. */
  datatype TNode = Leaf(text: string) | Branch(fields: seq<Field>)
  datatype Field = Field(key: string, node: TNode)

  /** The child under a key in a nested map, if any. */
  function Child(fields: seq<Field>, key: string): (r: Option<TNode>)
    ensures r.Some? ==> exists i :: 0 <= i < |fields| && fields[i].key == key && fields[i].node == r.value
    ensures r.None? ==> forall i :: 0 <= i < |fields| ==> fields[i].key != key
  {
    if fields == [] then None
    else if fields[0].key == key then Some(fields[0].node)
    else
      var r := Child(fields[1..], key);
      assert forall i :: 1 <= i < |fields| ==> fields[i] == fields[1..][i - 1];
      r
  }

  /** `current[segment]` where it is not undefined: the child of a nested
      map. A text has no children. */
  function Step(node: TNode, segment: string): Option<TNode> {
    match node
    case Branch(fs) => Child(fs, segment)
    case Leaf(_) => None
  }

  /** The value a key path leads to; None once a step is undefined. */
  function Walk(node: TNode, path: seq<string>): Option<TNode>
    decreases |path|
  {
    if path == [] then Some(node)
    else
      var next := Step(node, path[0]);
      if next.None? then None else Walk(next.value, path[1..])
  }

  /** The looked-up text: the text the path leads to, or the empty string
      when it leads nowhere or to a nested map. */
  function Resolve(root: TNode, path: seq<string>): string {
    var n := Walk(root, path);
    if n.Some? && n.value.Leaf? then n.value.text else ""
  }

  function Table(language: Lang): TNode {
    if language == En then EnTable else ArTable
  }

  /** `getTranslation`: the text the path leads to in the active language's
      dictionary; the empty string for a missing segment or a nested map. */
  method GetTranslation(language: Lang, path: seq<string>) returns (r: string)
    ensures r == Resolve(Table(language), path)
  {
    var current := Table(language);
    for i := 0 to |path|
      invariant Walk(Table(language), path) == Walk(current, path[i..])
    {
      assert path[i..][1..] == path[i + 1..];
      var next := Step(current, path[i]);
      if next.None? {
        return "";
      }
      current := next.value;
    }
    assert path[|path|..] == [];
    r := if current.Leaf? then current.text else "";
  }

  /** A segment missing at any level leaves the whole path unresolved: the
      lookup yields the empty string. */
  lemma {:induction false} MissingPrefix(node: TNode, path: seq<string>, i: nat)
    requires i <= |path| && Walk(node, path[..i]).None?
    ensures Walk(node, path).None? && Resolve(node, path) == ""
    decreases i
  {
    assert path[..i][0] == path[0];
    var next := Step(node, path[0]);
    if next.Some? {
      assert path[..i][1..] == path[1..][..i - 1];
      MissingPrefix(next.value, path[1..], i - 1);
    }
  }

  /** A path through a text leaf and beyond it is unresolved. */
  lemma {:induction false} PastLeaf(node: TNode, path: seq<string>, i: nat)
    requires i < |path| && Walk(node, path[..i]).Some? && Walk(node, path[..i]).value.Leaf?
    ensures Resolve(node, path) == ""
  {
    WalkAppend(node, path[..i], path[i]);
    assert path[..i] + [path[i]] == path[..i + 1];
    MissingPrefix(node, path, i + 1);
  }

  /** Walking one segment more is one more step from where the path led. */
  lemma {:induction false} WalkAppend(node: TNode, path: seq<string>, segment: string)
    requires Walk(node, path).Some?
    ensures Walk(node, path + [segment]) == Step(Walk(node, path).value, segment)
    decreases |path|
  {
    var p := path + [segment];
    if path == [] {
      assert p[1..] == [];
    } else {
      assert p[0] == path[0] && p[1..] == path[1..] + [segment];
      WalkAppend(Step(node, path[0]).value, path[1..], segment);
    }
  }

  /** The documented example: `['nav', 'menu']` names the menu link's text. */
  lemma NavMenuExample()
    ensures Resolve(Table(En), ["nav", "menu"]) == "Menu"
    ensures Resolve(Table(Ar), ["nav", "menu"]) == "القائمة"
  {
  }

  /** Both dictionaries are maps at the root, so the empty path yields the
      empty string. */
  lemma EmptyPath(language: Lang)
    ensures Resolve(Table(language), []) == ""
  {
  }

  /** Two dictionaries with the same keys, in the same order, at every level,
      and texts in the same places. */
  predicate SameKeys(a: TNode, b: TNode)
    decreases a
  {
    match a
    case Leaf(_) => b.Leaf?
    case Branch(fs) =>
      b.Branch? && |fs| == |b.fields| &&
      forall i :: 0 <= i < |fs| ==> fs[i].key == b.fields[i].key && SameKeys(fs[i].node, b.fields[i].node)
  }

  lemma {:induction false} ChildSameKeys(a: seq<Field>, b: seq<Field>, key: string)
    requires |a| == |b|
    requires forall i :: 0 <= i < |a| ==> a[i].key == b[i].key && SameKeys(a[i].node, b[i].node)
    ensures Child(a, key).Some? <==> Child(b, key).Some?
    ensures Child(a, key).Some? ==> SameKeys(Child(a, key).value, Child(b, key).value)
  {
    if a != [] && a[0].key != key {
      assert forall i :: 0 <= i < |a| - 1 ==> a[1..][i] == a[i + 1] && b[1..][i] == b[i + 1];
      ChildSameKeys(a[1..], b[1..], key);
    }
  }

  /** Dictionaries with the same keys define the same key paths, each leading
      to a text in both or to a nested map in both. */
  lemma {:induction false} SameKeysWalk(a: TNode, b: TNode, path: seq<string>)
    requires SameKeys(a, b)
    ensures Walk(a, path).Some? <==> Walk(b, path).Some?
    ensures Walk(a, path).Some? ==> SameKeys(Walk(a, path).value, Walk(b, path).value)
    decreases |path|
  {
    if path != [] && a.Branch? {
      ChildSameKeys(a.fields, b.fields, path[0]);
      var ca := Child(a.fields, path[0]);
      if ca.Some? {
        SameKeysWalk(ca.value, Child(b.fields, path[0]).value, path[1..]);
      }
    }
  }

  /** Every key is defined for both languages: a key path leads to a text in
      English exactly when it leads to a text in Arabic, and to a nested map
      in one exactly when in the other. */
  lemma KeyParity(path: seq<string>)
    ensures Walk(EnTable, path).Some? <==> Walk(ArTable, path).Some?
    ensures Walk(EnTable, path).Some? ==>
      (Walk(EnTable, path).value.Leaf? <==> Walk(ArTable, path).value.Leaf?)
  {
    TablesSameKeys();
    SameKeysWalk(EnTable, ArTable, path);
  }

  lemma TablesSameKeys()
    ensures SameKeys(EnTable, ArTable)
  {
    NavSameKeys();
    HeroSameKeys();
    MenuSameKeys();
    FounderSameKeys();
    StorySameKeys();
    BranchesSameKeys();
    ContactSameKeys();
    CartSameKeys();
    LanguageSwitcherSameKeys();
  }

  lemma NavSameKeys()
    ensures SameKeys(EnNav, ArNav)
  {
  }

  lemma HeroSameKeys()
    ensures SameKeys(EnHero, ArHero)
  {
  }

  lemma MenuSameKeys()
    ensures SameKeys(EnMenu, ArMenu)
  {
  }

  lemma FounderSameKeys()
    ensures SameKeys(EnFounder, ArFounder)
  {
  }

  lemma StorySameKeys()
    ensures SameKeys(EnStory, ArStory)
  {
  }

  lemma BranchesSameKeys()
    ensures SameKeys(EnBranches, ArBranches)
  {
  }

  lemma ContactSameKeys()
    ensures SameKeys(EnContact, ArContact)
  {
  }

  lemma CartSameKeys()
    ensures SameKeys(EnCart, ArCart)
  {
  }

  lemma LanguageSwitcherSameKeys()
    ensures SameKeys(EnLanguageSwitcher, ArLanguageSwitcher)
  {
  }

  /** The English dictionary. */
  const EnTable: TNode := Branch([
    Field("nav", EnNav),
    Field("hero", EnHero),
    Field("menu", EnMenu),
    Field("founder", EnFounder),
    Field("story", EnStory),
    Field("branches", EnBranches),
    Field("contact", EnContact),
    Field("cart", EnCart),
    Field("languageSwitcher", EnLanguageSwitcher)
  ])

  /** The Arabic dictionary. */
  const ArTable: TNode := Branch([
    Field("nav", ArNav),
    Field("hero", ArHero),
    Field("menu", ArMenu),
    Field("founder", ArFounder),
    Field("story", ArStory),
    Field("branches", ArBranches),
    Field("contact", ArContact),
    Field("cart", ArCart),
    Field("languageSwitcher", ArLanguageSwitcher)
  ])

  const EnNav: TNode := Branch([
    Field("menu", Leaf("Menu")),
    Field("founder", Leaf("Founder")),
    Field("story", Leaf("Our Story")),
    Field("branches", Leaf("Branches")),
    Field("contactUs", Leaf("Contact Us")),
    Field("cart", Leaf("Cart")),
    Field("language", Leaf("Language")),
    Field("install", Leaf("Install App"))
  ])

  const EnHero: TNode := Branch([
    Field("title", Leaf("Baghdad Generosity.. with Bahrain Hospitality")),
    Field("subtitle", Leaf("Where stories dwell and authenticity is slow‑cooked"))
  ])

  const EnMenu: TNode := Branch([
    Field("title", Leaf("Menu")),
    Field("empty", Leaf("Our curated menu will be available soon.")),
    Field("addToCart", Leaf("Add to cart")),
    Field("added", Leaf("Item added to cart"))
  ])

  const EnFounder: TNode := Branch([
    Field("title", Leaf("The story behind Kahramana Baghdad")),
    Field("subtitle", Leaf("When vision turns into a taste experience")),
    Field("name", Leaf("Engineer Asaad Al‑Jabbouri")),
    Field("role", Leaf("Owner & Founder")),
    Field("description", Leaf("Engineer Asaad Al‑Jabbouri carries a deep passion for details; it is the same passion that accompanied him from the world of engineering to the world of flavour. Food for him was not merely a commercial project but a sincere way to convey the culture and generosity of Baghdad to Bahrain. With an engineer’s mindset that believes quality is built and not coincidental, he designed “Kahramana Baghdad” to be more than a restaurant; a space where Iraqi authenticity meets contemporary taste and refined Bahraini hospitality. Today he stands behind every detail offered to the guest — from the choice of ingredients to the way of presentation — to ensure each visit reflects his passion, vision and respect for his guests’ taste.")),
    Field("quote", Leaf("I didn’t just build a restaurant… I brought the flavour of Baghdad to Bahrain."))
  ])

  const EnStory: TNode := Branch([
    Field("title", Leaf("Kahramana Baghdad: A tale of generosity told at the table")),
    Field("subtitle", Leaf("Where Baghdad heritage meets the warmth of Bahraini hospitality")),
    Field("description", Leaf("“Kahramana” in the Baghdadi memory was not merely a story to be told but a symbol of cleverness, generosity and victory through wisdom. From this deep meaning the idea of “Kahramana Baghdad” was born — a restaurant that evokes the spirit of authentic Baghdad and presents it in a contemporary style worthy of today’s taste. At “Kahramana Baghdad” we do not offer food as inherited recipes only, but craft a complete experience. We take the secrets of authentic Baghdadi flavour and carefully blend them with the elegance of Bahraini hospitality to create a taste that merges the authenticity of the past with the refinement of the present. Each dish offered is an invitation to a sensory journey that begins from the alleys of old Baghdad and travels through time to your table in Bahrain. Here, meals are not just served, but a story of generosity, passion and uniqueness is offered to make our guests feel at home.")),
    Field("quote", Leaf("Here we do not just serve food… we revive a legacy and create an experience."))
  ])

  const EnBranches: TNode := Branch([
    Field("title", Leaf("Branches")),
    Field("riffa", Branch([
      Field("title", Leaf("Riffa (Hajiyat)")),
      Field("description", Leaf("Hajiyat Riffa, Bahrain"))
    ])),
    Field("galali", Branch([
      Field("title", Leaf("Galali (Muharraq)")),
      Field("description", Leaf("Muharraq, Bahrain"))
    ]))
  ])

  const EnContact: TNode := Branch([
    Field("title", Leaf("Contact Us")),
    Field("callUs", Leaf("Call us")),
    Field("riffaPhone", Leaf("17131413")),
    Field("riffaWhatsApp", Leaf("97317131413")),
    Field("galaliPhone", Leaf("17131213")),
    Field("galaliWhatsApp", Leaf("97317131213")),
    Field("email", Leaf("info@kahramana.com")),
    Field("instagram", Leaf("@kahramanat_b")),
    Field("snapchat", Leaf("@kahramanat_b")),
    Field("tiktok", Leaf("@kahramanat_b"))
  ])

  const EnCart: TNode := Branch([
    Field("title", Leaf("Your Cart")),
    Field("empty", Leaf("Your cart is empty.")),
    Field("checkout", Leaf("Checkout")),
    Field("total", Leaf("Total")),
    Field("close", Leaf("Close")),
    Field("remove", Leaf("Remove"))
  ])

  const EnLanguageSwitcher: TNode := Branch([
    Field("en", Leaf("English")),
    Field("ar", Leaf("Arabic")),
    Field("change", Leaf("Change Language"))
  ])

  const ArNav: TNode := Branch([
    Field("menu", Leaf("القائمة")),
    Field("founder", Leaf("المؤسس")),
    Field("story", Leaf("قصتنا")),
    Field("branches", Leaf("الفروع")),
    Field("contactUs", Leaf("اتصل بنا")),
    Field("cart", Leaf("السلة")),
    Field("language", Leaf("اللغة")),
    Field("install", Leaf("تثبيت التطبيق"))
  ])

  const ArHero: TNode := Branch([
    Field("title", Leaf("كرم بغداد.. بضيافة البحرين")),
    Field("subtitle", Leaf("حيث تسكن الحكايات وتُطبخ الأصالة على نار هادئة"))
  ])

  const ArMenu: TNode := Branch([
    Field("title", Leaf("القائمة")),
    Field("empty", Leaf("قائمتنا المختارة ستكون متاحة قريباً.")),
    Field("addToCart", Leaf("أضف إلى السلة")),
    Field("added", Leaf("تمت إضافة العنصر إلى السلة"))
  ])

  const ArFounder: TNode := Branch([
    Field("title", Leaf("القصة وراء كهرمانة بغداد")),
    Field("subtitle", Leaf("حين تتحول الرؤية إلى تجربة تُذاق")),
    Field("name", Leaf("المهندس أسعد الجبوري")),
    Field("role", Leaf("المالك والمؤسس")),
    Field("description", Leaf("يحمل المهندس أسعد الجبوري شغفًا عميقًا بالتفاصيل، وهو الشغف ذاته الذي رافقه من عالم الهندسة إلى عالم المذاق. لم يكن الطعام بالنسبة له مشروعًا تجاريًا، بل وسيلة صادقة لنقل ثقافة وكرم بغداد إلى البحرين. بعقلية مهندس يؤمن بأن الجودة تُبنى ولا تُصادف، صمّم «كهرمانة بغداد» ليكون أكثر من مطعم؛ مساحة تلتقي فيها الأصالة العراقية مع الذوق العصري والضيافة البحرينية الراقية. اليوم، يقف الجبوري خلف كل تفصيلة تُقدَّم للضيف — من اختيار المكونات إلى طريقة التقديم — ليضمن أن تكون كل تجربة زيارة انعكاسًا حقيقيًا لشغفه، ورؤيته، واحترامه لذائقة ضيوفه.")),
    Field("quote", Leaf("لم أبنِ مطعمًا فقط… بل نقلت نكهة بغداد إلى البحرين."))
  ])

  const ArStory: TNode := Branch([
    Field("title", Leaf("كهرمانة بغداد: حكاية كرم تُروى على المائدة")),
    Field("subtitle", Leaf("حين يلتقي إرث بغداد بدفء الضيافة البحرينية")),
    Field("description", Leaf("لم تكن «كهرمانة» في الذاكرة البغدادية مجرد حكاية تُروى، بل كانت رمزًا للفطنة والكرم والانتصار بالحكمة. من هذا المعنى العميق وُلدت فكرة «كهرمانة بغداد» — مطعم يستحضر روح بغداد الأصيلة ويقدّمها بأسلوب معاصر يليق بذائقة اليوم. في «كهرمانة بغداد»، لا نقدّم الطعام بوصفه وصفات موروثة فحسب، بل نصنع تجربة متكاملة. نأخذ أسرار المذاق البغدادي الأصيل ونمزجها بعناية مع أناقة الضيافة البحرينية، لنخلق نكهة تجمع أصالة الماضي ورُقي الحاضر. كل طبق يُقدَّم هو دعوة لرحلة حسّية تبدأ من أزقة بغداد القديمة، وتعبر الزمن لتصل إلى مائدتك في البحرين. هنا، لا تُقدَّم الوجبات فقط، بل تُقدَّم حكاية كرم، وشغف، وتفرّد تُشعر ضيوفنا بأنهم في بيتهم.")),
    Field("quote", Leaf("\"هنا لا نُقدّم طعامًا فقط… بل نُحيي إرثًا ونصنع تجربة.\""))
  ])

  const ArBranches: TNode := Branch([
    Field("title", Leaf("الفروع")),
    Field("riffa", Branch([
      Field("title", Leaf("الرفاع (الحجيات)")),
      Field("description", Leaf("الحجيات، الرفاع، البحرين"))
    ])),
    Field("galali", Branch([
      Field("title", Leaf("قلالي (المحرق)")),
      Field("description", Leaf("المحرق، البحرين"))
    ]))
  ])

  const ArContact: TNode := Branch([
    Field("title", Leaf("اتصل بنا")),
    Field("callUs", Leaf("اتصل بنا")),
    Field("riffaPhone", Leaf("17131413")),
    Field("riffaWhatsApp", Leaf("97317131413")),
    Field("galaliPhone", Leaf("17131213")),
    Field("galaliWhatsApp", Leaf("97317131213")),
    Field("email", Leaf("info@kahramana.com")),
    Field("instagram", Leaf("@kahramanat_b")),
    Field("snapchat", Leaf("@kahramanat_b")),
    Field("tiktok", Leaf("@kahramanat_b"))
  ])

  const ArCart: TNode := Branch([
    Field("title", Leaf("سلتك")),
    Field("empty", Leaf("سلتك فارغة.")),
    Field("checkout", Leaf("إتمام الطلب")),
    Field("total", Leaf("الإجمالي")),
    Field("close", Leaf("إغلاق")),
    Field("remove", Leaf("حذف"))
  ])

  const ArLanguageSwitcher: TNode := Branch([
    Field("en", Leaf("الإنجليزية")),
    Field("ar", Leaf("العربية")),
    Field("change", Leaf("تغيير اللغة"))
  ])
}
